=== FILE: README.md ===
# WSPR decoding core of ShinySDR, in Dafny

ShinySDR's WSPR plugin records the receiver's audio in fixed intervals as WAV
segment files. It runs the external `wsprd` decoder on each finished segment
and turns the lines `wsprd` prints into spot records. This project models
the four sequential pieces of that plugin as pure Dafny functions over
immutable datatypes, and proves what the plugin's tests promise about them.

- **wsprd output protocol** (`Protocol`, built on `LineBuffer`, `Fields`,
  `Decimal` and `Spot`).
  - Output arrives in chunks cut anywhere. Each chunk is appended to the text
    held back so far; every newline-terminated line is split off, and the
    unterminated rest is held for the next chunk.
  - Every complete line is split on runs of whitespace. It must have exactly
    eight fields, `time snr dt freq drift call grid power`, with `snr`,
    `drift` and `power` signed integers and `dt` and `freq` literals Python's
    `float()` accepts.
  - The call is normalised: `<...>` is no call, `<X>` is `X`, and any other
    token is itself.
  - A line outside that grammar yields nothing. Each accepted line yields one
    spot stamped with the decode time the protocol was created with.
  - When the process ends, deletion of the WAV file is queued for a worker
    thread.
- **Segment file names** (`Listener`, built on `Calendar`). A segment is
  named `<dir>/<frequency in Hz>_<YYMMDD>_<HHMM>.wav`. The fields are the
  proleptic-Gregorian UTC decomposition of the segment's unix start time,
  each zero-padded to two digits.
- **Interval listener guard** (`Listener`).
  - Opening a segment remembers the receiver frequency.
  - Closing it starts one `wsprd` run only if the frequency is unchanged.
    That run carries the segment file, the clock reading as decode time, the
    located executable, the dial frequency (receiver minus audio offset) and
    the listener's directory as working directory.
- **Deferred deletion and the scratch directory** (`Deferral`, `Demodulator`).
  - Deferred tasks are only queued. Running the queue executes every task in
    order and then empties it.
  - The demodulator's close removes its scratch directory with everything
    beneath it, and tolerates that directory being gone already.

The filesystem is a set of paths. The frequency authority, the clock and the
executable locator are not modelled: the value each answers with is passed
in as a parameter. `Vectors` proves the concrete cases of the test suite
against the model.

The implementation module `shinysdr/plugins/wspr/demodulator.py` is not part
of this model. Its behaviour is rebuilt from the assertions and docstrings of
`shinysdr/test/plugins/wspr/test_demodulator.py`, which every row below cites.

## Model

| member | source | states |
|---|---|---|
| Spot.ParseLine | shinysdr/test/plugins/wspr/test_demodulator.py:206-218 | A line yields a spot exactly when its whitespace-separated fields are eight, with int-readable snr, drift and power and float-readable dt and frequency. The spot then carries the given decode time, those integer values, the normalised call and the grid and frequency tokens. |
| Spot.ParseLineSeesOnlyFields | shinysdr/test/plugins/wspr/test_demodulator.py:207 | How much whitespace separates the fields makes no difference: fields separated by any non-empty whitespace runs parse as the same fields joined by single spaces. |
| Spot.BlankLineIgnored | shinysdr/test/plugins/wspr/test_demodulator.py:245-250 | A line of nothing but whitespace, such as the blank first line of the malformed-line chunk, yields no spot. |
| Spot.ParseCall | shinysdr/test/plugins/wspr/test_demodulator.py:220-241 | The call is None exactly for `<...>`. A bracketed token gives the text whose bracketing is the token. Any other token is kept as it is. |
| Spot.ParseRenderCall | shinysdr/test/plugins/wspr/test_demodulator.py:220-241 | Normalising a call that wsprd printed, bare or bracketed for a two-part transmission or `<...>` when unknown, recovers the call. |
| Spot.ParseFormatLine | shinysdr/test/plugins/wspr/test_demodulator.py:206-218 | Reading back a line printed from a printable spot gives that spot, with the decode time in place of the line's own time field. |
| Fields.Split | shinysdr/test/plugins/wspr/test_demodulator.py:207 | Every field is non-empty and holds no whitespace. |
| Fields.SplitUnsplit | shinysdr/test/plugins/wspr/test_demodulator.py:207 | Splitting fields joined by single spaces gives those fields back. |
| Fields.SplitInterleave | shinysdr/test/plugins/wspr/test_demodulator.py:207 | Splitting fields joined by any non-empty runs of whitespace gives those fields back. |
| Fields.SplitIsCanonical | shinysdr/test/plugins/wspr/test_demodulator.py:207 | Re-joining the fields of a line with single spaces and splitting again gives the same fields. |
| Decimal.ParseInt | shinysdr/test/plugins/wspr/test_demodulator.py:212-218 | A field reads as an integer exactly when it is an optional sign followed by one or more digits. Its sign follows the literal's: not positive after `-`, not negative otherwise. Its value is stated by Decimal.ParsePaddedInt and Decimal.EveryIntLiteralIsPadded. |
| Decimal.FormatNat | shinysdr/test/plugins/wspr/test_demodulator.py:111-112 | The decimal digits of a natural number: digits only, no leading zero, and their value is the number. |
| Decimal.ParsePaddedInt | shinysdr/test/plugins/wspr/test_demodulator.py:212-218 | A sign (none, `+` or `-`), any run of leading zeros and the digits of a number read as that number, negated after `-`: `+33` and `033` read as 33 and `-0` as 0. |
| Decimal.CanonicalDigits | shinysdr/test/plugins/wspr/test_demodulator.py:212-218 | A digit string with no leading zero (or the single digit `0`) is exactly the rendering of its own value. |
| Decimal.ZeroPadding | shinysdr/test/plugins/wspr/test_demodulator.py:212-218 | Every digit string is a run of zeros followed by the shortest rendering of its own value. |
| Decimal.EveryIntLiteralIsPadded | shinysdr/test/plugins/wspr/test_demodulator.py:212-218 | Every literal that reads as an integer is a sign, zero padding and the rendering of a natural number, and reads as that number, negated after `-`. |
| Vectors.IntSpellings | shinysdr/test/plugins/wspr/test_demodulator.py:212-218 | `+33` and `033` read as 33, and `-0` reads as 0. |
| Decimal.ParseFormatInt | shinysdr/test/plugins/wspr/test_demodulator.py:212-218 | Any integer printed in decimal reads back as itself. |
| Decimal.PointLiteralIsFloat | shinysdr/test/plugins/wspr/test_demodulator.py:213-214 | Digits, a point and digits form a float literal, as the dt `1.5` and frequency `14.097110` are. |
| LineBuffer.SplitLines | shinysdr/test/plugins/wspr/test_demodulator.py:254-261 | The text is its complete lines, each followed by a newline, then an unterminated rest. No line and no rest holds a newline. |
| LineBuffer.SplitTerminated | shinysdr/test/plugins/wspr/test_demodulator.py:254-261 | Splitting newline-free lines, terminated and followed by a newline-free rest, gives exactly those lines and that rest. |
| LineBuffer.Feed | shinysdr/test/plugins/wspr/test_demodulator.py:254-261 | The held text and the chunk are exactly the completed lines, each with its newline, followed by the new held text. Neither the lines nor the held text contain a newline. |
| LineBuffer.FeedWithoutNewline | shinysdr/test/plugins/wspr/test_demodulator.py:256-257 | A chunk without a newline completes no line and is only held back. |
| LineBuffer.FeedSplit | shinysdr/test/plugins/wspr/test_demodulator.py:254-261 | Feeding two chunks one after the other completes the same lines, in the same order, and holds back the same text as feeding them at once. |
| LineBuffer.FeedAllIsFeedConcat | shinysdr/test/plugins/wspr/test_demodulator.py:254-261 | Any cutting of a stream into chunks completes the lines of the whole stream. |
| Protocol.Start | shinysdr/test/plugins/wspr/test_demodulator.py:194 | A new protocol is for the given WAV file and decode time and holds no text back. |
| Protocol.StartOnWholeLines | shinysdr/test/plugins/wspr/test_demodulator.py:194-206 | A new protocol given whole lines yields exactly their spots and still holds nothing back. |
| Protocol.OutReceived | shinysdr/test/plugins/wspr/test_demodulator.py:206-211 | A chunk keeps the protocol's file and decode time, leaves no newline in the held-back text, and stamps every spot with the decode time. |
| Protocol.SpotsOf | shinysdr/test/plugins/wspr/test_demodulator.py:243-252 | The lines yield at most one spot each, every spot stamped with the decode time. |
| Protocol.SpotsOfAppend | shinysdr/test/plugins/wspr/test_demodulator.py:250-252 | Spots come out in line order: consecutive stretches of lines yield their spots one after the other. |
| Protocol.SpotsOfLine | shinysdr/test/plugins/wspr/test_demodulator.py:243-252 | A line yields its spot when it parses and nothing when it does not. |
| Protocol.CompletedLines | shinysdr/test/plugins/wspr/test_demodulator.py:206-208 | A chunk that completes some lines yields exactly their spots and holds back what follows them. |
| Protocol.NoSpotBeforeNewline | shinysdr/test/plugins/wspr/test_demodulator.py:256-257 | Until its newline arrives, a line yields no spot and its text is held back. |
| Protocol.OutReceivedSplit | shinysdr/test/plugins/wspr/test_demodulator.py:254-261 | Two chunks yield, together and in order, the spots that one chunk holding both yields, and hold back the same text. |
| Protocol.DeliverIsWhole | shinysdr/test/plugins/wspr/test_demodulator.py:254-261 | However the output is cut into chunks, the spots are those of the whole output. |
| Protocol.ProcessEnded | shinysdr/test/plugins/wspr/test_demodulator.py:263-266 | The process ending queues exactly one deletion of the WAV file behind the waiting tasks and runs nothing. |
| Protocol.DeletedAfterThreadsRun | shinysdr/test/plugins/wspr/test_demodulator.py:263-268 | The WAV file still exists after the process ends and is gone, with the queue empty, once the worker's tasks have run. |
| Deferral.Defer | shinysdr/test/plugins/wspr/test_demodulator.py:275-278 | Deferring a task appends it behind the waiting tasks and leaves them as they were. |
| Deferral.RunTask | shinysdr/test/plugins/wspr/test_demodulator.py:282 | Unlinking removes the path. It reports removal exactly when the path existed. |
| Deferral.RunAll | shinysdr/test/plugins/wspr/test_demodulator.py:280-283 | Running the queue front first removes exactly the targeted paths, with one result per task. A task reports removal exactly when its path existed and no earlier task removed it. |
| Deferral.RunThreads | shinysdr/test/plugins/wspr/test_demodulator.py:280-283 | Afterwards the queue is empty and a path exists exactly when it existed and no queued task targeted it. There is one result per task. |
| Deferral.UnlinkIdempotent | shinysdr/test/plugins/wspr/test_demodulator.py:280-283 | Unlinking a path twice removes it once; the second task finds it gone. |
| Calendar.CivilFromDays | shinysdr/test/plugins/wspr/test_demodulator.py:106-112 | The date of a day number is a valid calendar date whose day number is the given one. |
| Calendar.CivilFromDaysRoundTrip | shinysdr/test/plugins/wspr/test_demodulator.py:106-112 | Every valid date is the date of its own day number. |
| Calendar.DaysFromCivilInjective | shinysdr/test/plugins/wspr/test_demodulator.py:106-112 | Distinct valid dates have distinct day numbers. |
| Calendar.Gmtime | shinysdr/test/plugins/wspr/test_demodulator.py:106-112 | The UTC decomposition of a timestamp is a valid date and time of day that converts back to that timestamp. |
| Calendar.GmtimeUnique | shinysdr/test/plugins/wspr/test_demodulator.py:106-112 | A valid date and time that converts to a timestamp is that timestamp's decomposition. |
| Listener.TwoDigits | shinysdr/test/plugins/wspr/test_demodulator.py:111-112 | A number below 100 prints as exactly two digits whose value is the number, zero-padded. |
| Listener.FilenameInDirectory | shinysdr/test/plugins/wspr/test_demodulator.py:112 | Joined to a directory without a trailing slash, a segment file lies directly inside the directory, separated by one slash. |
| Listener.ParseSegmentName | shinysdr/test/plugins/wspr/test_demodulator.py:111 | A name reads as a stamp exactly when it is an integer followed by `_YYMMDD_HHMM.wav` with digits in every digit position. |
| Listener.SegmentName | shinysdr/test/plugins/wspr/test_demodulator.py:106-112 | A segment name is the frequency printed as `%d` followed by a 16-character stamp. It reads back, through the independent reader `ParseSegmentName`, as its frequency and the two-digit year, month, day, hour and minute of the UTC time of its start. |
| Listener.Filename | shinysdr/test/plugins/wspr/test_demodulator.py:106-112 | A segment's path is joined as `os.path.join` does: directory then name for an empty directory or one ending in `/`, and directory, one `/`, then name otherwise. |
| Listener.Step | shinysdr/test/plugins/wspr/test_demodulator.py:114-145 | An open only remembers the frequency. A close keeps the listener and either appends at most one run or counts one fault, never both. A new run comes only from a close at the remembered frequency, with an executable, and is set up from the closed segment. The directory and the audio offset never change. |
| Listener.Run | shinysdr/test/plugins/wspr/test_demodulator.py:114-145 | Over any events, runs are only appended, at most one per event, none without an executable, and each works in the listener's directory. |
| Listener.StampTextReads | shinysdr/test/plugins/wspr/test_demodulator.py:111 | The `_YYMMDD_HHMM.wav` text of a time reads back as that time's fields. |
| Listener.FileOpened | shinysdr/test/plugins/wspr/test_demodulator.py:114-116 | Opening a segment remembers the receiver frequency and changes nothing else. |
| Listener.FileClosed | shinysdr/test/plugins/wspr/test_demodulator.py:118-145 | A close is discarded exactly when the frequency differs from the one remembered at open. A missing executable is a fault exactly when it does not differ. Otherwise the run uses the segment file, the clock as decode time, the located executable, a dial frequency that plus the audio offset is the receiver frequency, and the listener's directory. |
| Listener.OpenedSpawnsNothing | shinysdr/test/plugins/wspr/test_demodulator.py:114-116 | Opening a segment starts no run. |
| Listener.OpenThenCloseSpawnsOne | shinysdr/test/plugins/wspr/test_demodulator.py:118-134 | Opening and then closing a segment at one frequency starts exactly one run, set up from that segment. |
| Listener.SpawnsOnlyAtOpeningFrequency | shinysdr/test/plugins/wspr/test_demodulator.py:136-145 | After an open at some frequency, each close at that frequency starts one run and every other close starts none. |
| Listener.FrequencyChangeSpawnsNothing | shinysdr/test/plugins/wspr/test_demodulator.py:136-145 | If every close after the open finds the frequency changed, no run is started. |
| Demodulator.Create | shinysdr/test/plugins/wspr/test_demodulator.py:162-173 | Construction makes the scratch directory exist, keeps every existing path and creates no other path. |
| Demodulator.IntervalListener | shinysdr/test/plugins/wspr/test_demodulator.py:162-173 | The demodulator's listener writes into the scratch directory and has no frequency remembered yet. |
| Demodulator.Close | shinysdr/test/plugins/wspr/test_demodulator.py:179-187 | Close removes the scratch directory and everything beneath it, touches no other path, and has no failure outcome. |
| Demodulator.CloseWhenAlreadyDeleted | shinysdr/test/plugins/wspr/test_demodulator.py:184-187 | If nothing of the scratch directory is left, close leaves the filesystem as it is. |
| Demodulator.CloseIdempotent | shinysdr/test/plugins/wspr/test_demodulator.py:184-187 | Closing a second time changes nothing more. |
| Demodulator.TemporaryDirectoryLifetime | shinysdr/test/plugins/wspr/test_demodulator.py:179-182 | The scratch directory exists after construction and not after close. |
| Demodulator.SegmentsInTempdir | shinysdr/test/plugins/wspr/test_demodulator.py:162-173 | Every segment file the demodulator's listener names lies in its non-empty scratch directory, whether or not that directory is written with a trailing slash. |
| Demodulator.CloseAndDeletionCommute | shinysdr/test/plugins/wspr/test_demodulator.py:179-187 | A pending deletion of a segment file and close give the same filesystem in either order. |
| Vectors.OneSpot | shinysdr/test/plugins/wspr/test_demodulator.py:206-218 | The test's single line yields exactly one spot: time 179823128.3, snr -21, dt 1.5, frequency 14.097110, drift -1, call WA7MOX, grid EL16, power 33. |
| Vectors.IndirectCall | shinysdr/test/plugins/wspr/test_demodulator.py:220-230 | Receiving the same line with `<WA7MOX>`, newline-terminated, yields exactly one spot, the same one, with call WA7MOX. |
| Vectors.UnknownCallIsNone | shinysdr/test/plugins/wspr/test_demodulator.py:232-241 | Receiving the same line with `<...>`, newline-terminated, yields exactly one spot, the same one but with no call. |
| Vectors.MalformedLineIgnored | shinysdr/test/plugins/wspr/test_demodulator.py:243-252 | The chunk of a blank line, a spot line, `garbage` and another spot line yields two spots, WA7MOX then W8II. |
| Vectors.LineInParts | shinysdr/test/plugins/wspr/test_demodulator.py:254-261 | The first piece of the line yields nothing. The second piece yields the line's one spot, with call WA7MOX. |
| Vectors.June5th2017 | shinysdr/test/plugins/wspr/test_demodulator.py:107-108 | Timestamp 1496624040 is 5 June 2017, 00:54:00 UTC. |
| Vectors.SegmentNameVector | shinysdr/test/plugins/wspr/test_demodulator.py:106-112 | At 12345678 Hz and time 1496624040 the segment is named `12345678_170605_0054.wav`. |
| Vectors.FilenameVector | shinysdr/test/plugins/wspr/test_demodulator.py:106-112 | That segment's path is the listener's directory joined with `12345678_170605_0054.wav`. |
| Vectors.FileClosedVector | shinysdr/test/plugins/wspr/test_demodulator.py:118-134 | Open and close of `some file` at 12345678 Hz with audio offset 1234 start exactly one run. Its protocol is for `some file` with the clock reading as decode time; it uses `/here/is/wsprd`, dial frequency 12344444 Hz and the listener's directory. |

## Left out

- The implementation module `shinysdr/plugins/wspr/demodulator.py` is not part of this model. The behaviour comes from the tests' assertions and docstrings.
- The GNU Radio flowgraph, the WAV interval sink and its file writing: signal processing, not decision logic.
- Process spawning, Twisted Deferreds, the reactor and worker threads. A started run is a `DecodeRequest` record, and a deferred call is a `Task` in a queue.
- Real filesystem calls (`mkdir`, `mkdtemp`, `rmdir`, `unlink`, `rmtree`). The filesystem is a set of paths.
- The frequency authority, the clock and the executable locator. Their answers are parameters of `Listener.FileClosed`. Through `Listener.Run`, the frequency and the clock reading come with each event. The locator's answer is a single parameter for a whole sequence of events, so a locator whose answer changes between closes is not modelled.
- Delivery of spots to the context's message sink: `Protocol.OutReceived` returns the spots instead.
- The zope interface conformance checks: runtime reflection.
- Spot.ParseLine: dt and frequency stay the decimal tokens wsprd printed, checked against the float literal grammar, and are not converted to floating point. The tests compare them with the floats 1.5 and 14.09711.
- Listener.FileClosed: the dial frequency stays in integer Hz. The division by 10^6, its `str()` rendering and the rest of wsprd's argument vector and environment are not modelled.
- Listener.SegmentName: the timestamp is whole seconds. Truncating a fractional clock reading is not modelled.
- Fields.Split: whitespace is the ASCII set that splits a byte string (space, tab, newline, carriage return, vertical tab, form feed), not the wider Unicode set.
- Deferral.RunTask: an unlink of a path that is already gone reports `AlreadyGone` and the queue runs on. The model treats a path already gone as deleted. In the test double `ThreadDeferrer.run_threads` (shinysdr/test/plugins/wspr/test_demodulator.py:280-283), the task is called before its Deferred fires. So an exception from a task never reaches that Deferred. It escapes `run_threads` itself, the later tasks do not run and the queue is not cleared. That exceptional path is not modelled.
- Protocol.ProcessEnded: the exit status is ignored, and text still held back without a newline is dropped, not parsed.

=== FILE: calendar.dfy ===
/**
 The UTC calendar decomposition of a unix timestamp, as `time.gmtime`
 performs it: whole days since 1970-01-01 become a proleptic Gregorian
 year, month and day, and the seconds within the day become hour, minute
 and second. Seconds before the epoch count backwards (floor division).
 */
module Calendar {

  datatype Date = Date(year: int, month: int, day: int)

  datatype UtcTime = UtcTime(date: Date, hour: int, minute: int, second: int)

  const SecondsPerDay: int := 86400

  predicate IsLeap(y: int) {
    y % 4 == 0 && (y % 100 != 0 || y % 400 == 0)
  }

  function YearLength(y: int): int {
    if IsLeap(y) then 366 else 365
  }

  function MonthLength(y: int, m: int): int
    requires 1 <= m <= 12
  {
    if m == 2 then (if IsLeap(y) then 29 else 28)
    else if m == 4 || m == 6 || m == 9 || m == 11 then 30
    else 31
  }

  predicate ValidDate(d: Date) {
    1 <= d.month <= 12 && 1 <= d.day <= MonthLength(d.year, d.month)
  }

  predicate ValidTime(t: UtcTime) {
    ValidDate(t.date) && 0 <= t.hour < 24 && 0 <= t.minute < 60 && 0 <= t.second < 60
  }

  /** Days from 1970-01-01 to January 1st of `y` (negative before 1970). */
  function DaysBeforeYear(y: int): int {
    var p := y - 1;
    // 477 leap years fall before 1970: 1969/4 - 1969/100 + 1969/400
    365 * (y - 1970) + (p / 4 - p / 100 + p / 400) - 477
  }

  /** Days from January 1st of `y` to the first of month `m`. */
  function DaysBeforeMonth(y: int, m: int): int
    requires 1 <= m <= 12
  {
    var common := [0, 31, 59, 90, 120, 151, 181, 212, 243, 273, 304, 334][m - 1];
    if m > 2 && IsLeap(y) then common + 1 else common
  }

  /** Days from 1970-01-01 to `d`: the reference the decomposition inverts. */
  function DaysFromCivil(d: Date): int
    requires ValidDate(d)
  {
    DaysBeforeYear(d.year) + DaysBeforeMonth(d.year, d.month) + d.day - 1
  }

  /** Each year starts where the previous one ends. */
  lemma YearStep(y: int)
    ensures DaysBeforeYear(y + 1) == DaysBeforeYear(y) + YearLength(y)
  {
    QuotientStep(y - 1, 4);
    QuotientStep(y - 1, 100);
    QuotientStep(y - 1, 400);
  }

  /** Stepping the dividend by one steps the quotient exactly at multiples of `k`. */
  lemma QuotientStep(p: int, k: int)
    requires k == 4 || k == 100 || k == 400
    ensures (p + 1) / k == p / k + (if (p + 1) % k == 0 then 1 else 0)
  {
    var q, r := p / k, p % k;
    var q', r' := (p + 1) / k, (p + 1) % k;
    assert p == k * q + r && 0 <= r < k;
    assert p + 1 == k * q' + r' && 0 <= r' < k;
    if k == 4 {
      assert 4 * (q' - q) == r + 1 - r';
    } else if k == 100 {
      assert 100 * (q' - q) == r + 1 - r';
    } else {
      assert 400 * (q' - q) == r + 1 - r';
    }
  }

  /** Each month starts where the previous one ends, and December ends the year. */
  lemma MonthStep(y: int, m: int)
    requires 1 <= m <= 12
    ensures m < 12 ==> DaysBeforeMonth(y, m + 1) == DaysBeforeMonth(y, m) + MonthLength(y, m)
    ensures m == 12 ==> DaysBeforeMonth(y, m) + MonthLength(y, m) == YearLength(y)
  {
  }

  lemma {:induction false} YearsOrdered(a: int, b: int)
    requires a < b
    ensures DaysBeforeYear(a + 1) <= DaysBeforeYear(b)
    decreases b - a
  {
    YearStep(b - 1);
    if a + 1 < b {
      YearsOrdered(a, b - 1);
    }
  }

  lemma {:induction false} MonthsOrdered(y: int, a: int, b: int)
    requires 1 <= a < b <= 12
    ensures DaysBeforeMonth(y, a) + MonthLength(y, a) <= DaysBeforeMonth(y, b)
    decreases b - a
  {
    MonthStep(y, b - 1);
    if a + 1 < b {
      MonthsOrdered(y, a, b - 1);
    }
  }

  /** A valid date's day number lies within its year. */
  lemma DayWithinYear(d: Date)
    requires ValidDate(d)
    ensures DaysBeforeYear(d.year) <= DaysFromCivil(d) < DaysBeforeYear(d.year + 1)
  {
    YearStep(d.year);
    MonthStep(d.year, d.month);
    if d.month < 12 {
      MonthsOrdered(d.year, d.month, 12);
      MonthStep(d.year, 12);
    }
  }

  /** Distinct valid dates have distinct day numbers. */
  lemma DaysFromCivilInjective(a: Date, b: Date)
    requires ValidDate(a) && ValidDate(b)
    requires DaysFromCivil(a) == DaysFromCivil(b)
    ensures a == b
  {
    DayWithinYear(a);
    DayWithinYear(b);
    if a.year < b.year {
      YearsOrdered(a.year, b.year);
    } else if b.year < a.year {
      YearsOrdered(b.year, a.year);
    }
    assert a.year == b.year;
    if a.month < b.month {
      MonthsOrdered(a.year, a.month, b.month);
    } else if b.month < a.month {
      MonthsOrdered(a.year, b.month, a.month);
    }
  }

  /** A year no later than the one holding day `z`. */
  function YearBelow(z: int): (y: int)
    ensures DaysBeforeYear(y) <= z
  {
    if z >= 0 then 1970 + z / 366 else 1970 - (-z + 364) / 365
  }

  /** The year holding day `z`, searched upward from `y`. */
  function FindYear(z: int, y: int): (r: int)
    requires DaysBeforeYear(y) <= z
    ensures DaysBeforeYear(r) <= z < DaysBeforeYear(r + 1)
    decreases z - DaysBeforeYear(y)
  {
    YearStep(y);
    if DaysBeforeYear(y + 1) <= z then FindYear(z, y + 1) else y
  }

  /** The month holding day `doy` of year `y`, searched upward from `m`. */
  function FindMonth(y: int, doy: int, m: int): (r: int)
    requires 1 <= m <= 12 && DaysBeforeMonth(y, m) <= doy < YearLength(y)
    ensures 1 <= r <= 12
    ensures DaysBeforeMonth(y, r) <= doy < DaysBeforeMonth(y, r) + MonthLength(y, r)
    decreases 12 - m
  {
    MonthStep(y, m);
    if m < 12 && DaysBeforeMonth(y, m + 1) <= doy then FindMonth(y, doy, m + 1) else m
  }

  /** The calendar date of day `z` counted from 1970-01-01. */
  function CivilFromDays(z: int): (d: Date)
    ensures ValidDate(d) && DaysFromCivil(d) == z
  {
    var y := FindYear(z, YearBelow(z));
    YearStep(y);
    var m := FindMonth(y, z - DaysBeforeYear(y), 1);
    Date(y, m, z - DaysBeforeYear(y) - DaysBeforeMonth(y, m) + 1)
  }

  /** Decomposing a date's day number gives the date back. */
  lemma CivilFromDaysRoundTrip(d: Date)
    requires ValidDate(d)
    ensures CivilFromDays(DaysFromCivil(d)) == d
  {
    DaysFromCivilInjective(CivilFromDays(DaysFromCivil(d)), d);
  }

  /** Seconds since the epoch of a UTC time. */
  function Timestamp(t: UtcTime): int
    requires ValidDate(t.date)
  {
    SecondsPerDay * DaysFromCivil(t.date) + 3600 * t.hour + 60 * t.minute + t.second
  }

  /** `time.gmtime(t)` for a whole number of seconds `t`. */
  function Gmtime(t: int): (r: UtcTime)
    ensures ValidTime(r) && Timestamp(r) == t
  {
    var days, s := t / SecondsPerDay, t % SecondsPerDay;
    var m := s % 3600;
    assert t == 86400 * days + s;
    assert s == 3600 * (s / 3600) + m;
    assert m == 60 * (m / 60) + m % 60;
    UtcTime(CivilFromDays(days), s / 3600, m / 60, m % 60)
  }

  /** There is exactly one UTC time for each timestamp. */
  lemma GmtimeUnique(t: int, u: UtcTime)
    requires ValidTime(u) && Timestamp(u) == t
    ensures Gmtime(t) == u
  {
    var g := Gmtime(t);
    var su := 3600 * u.hour + 60 * u.minute + u.second;
    var sg := 3600 * g.hour + 60 * g.minute + g.second;
    assert 0 <= su < SecondsPerDay && 0 <= sg < SecondsPerDay;
    assert DaysFromCivil(u.date) == DaysFromCivil(g.date);
    DaysFromCivilInjective(u.date, g.date);
  }
}

=== FILE: decimal.dfy ===
/**
 Decimal numerals: Python's `int()` on a field (an optional sign and one or
 more ASCII digits), the `%d` rendering of an integer, and the literal
 syntax Python's `float()` accepts.
 */
module Decimal {
  import opened Optional

  predicate IsDigit(c: char) {
    '0' <= c <= '9'
  }

  predicate AllDigits(s: string) {
    forall i :: 0 <= i < |s| ==> IsDigit(s[i])
  }

  function DigitValue(c: char): (d: nat)
    requires IsDigit(c)
    ensures d < 10
  {
    (c as int) - ('0' as int)
  }

  function DigitChar(d: nat): (c: char)
    requires d < 10
    ensures IsDigit(c) && DigitValue(c) == d
  {
    (('0' as int) + d) as char
  }

  /** The value of a digit string read most significant digit first. */
  function DigitsValue(s: string): nat
    requires AllDigits(s)
  {
    if s == [] then 0 else 10 * DigitsValue(s[..|s| - 1]) + DigitValue(s[|s| - 1])
  }

  /** What `int()` accepts once whitespace is split away: a sign, then digits. */
  predicate IsIntLiteral(s: string) {
    if s != [] && (s[0] == '-' || s[0] == '+') then s[1..] != [] && AllDigits(s[1..])
    else s != [] && AllDigits(s)
  }

  /** Python's `int(s)` for a whitespace-free `s`; `None` where `int()` raises. */
  function ParseInt(s: string): (r: Option<int>)
    ensures r.Some? <==> IsIntLiteral(s)
    ensures r.Some? && s[0] == '-' ==> r.value <= 0
    ensures r.Some? && s[0] != '-' ==> r.value >= 0
  {
    if s == [] then None
    else if s[0] == '-' || s[0] == '+' then
      if s[1..] != [] && AllDigits(s[1..]) then
        var v: int := DigitsValue(s[1..]);
        var n: int := if s[0] == '-' then -v else v;
        Some(n)
      else None
    else if AllDigits(s) then Some(DigitsValue(s))
    else None
  }

  /** The shortest decimal digit string denoting `n`. */
  function FormatNat(n: nat): (s: string)
    ensures s != [] && AllDigits(s)
    ensures DigitsValue(s) == n
    ensures s[0] == '0' ==> n == 0
  {
    if n < 10 then [DigitChar(n)]
    else
      var p := FormatNat(n / 10);
      var s := p + [DigitChar(n % 10)];
      assert s[..|s| - 1] == p;
      s
  }

  /** `"%d" % n`. */
  function FormatInt(n: int): (s: string)
    ensures s != [] && (n < 0 <==> s[0] == '-')
    ensures n >= 0 ==> AllDigits(s)
  {
    if n < 0 then "-" + FormatNat(-n) else FormatNat(n)
  }

  /** `int("%d" % n) == n`: the rendering of an integer reads back as that integer. */
  lemma ParseFormatInt(n: int)
    ensures ParseInt(FormatInt(n)) == Some(n)
  {
    var s := FormatInt(n);
    if n < 0 {
      assert s[1..] == FormatNat(-n);
    }
  }

  /** Leading zeros do not change what `int()` reads. */
  lemma {:induction false} LeadingZero(s: string)
    requires s != [] && AllDigits(s)
    ensures AllDigits("0" + s) && DigitsValue("0" + s) == DigitsValue(s)
    decreases |s|
  {
    var z := "0" + s;
    assert z[..|z| - 1] == "0" + s[..|s| - 1];
    if |s| > 1 {
      LeadingZero(s[..|s| - 1]);
    } else {
      assert z[..|z| - 1] == "0";
      assert DigitsValue("0") == 0;
    }
  }

  /** A run of zero digits, as may pad a numeral on the left. */
  predicate Zeros(z: string) {
    forall i :: 0 <= i < |z| ==> z[i] == '0'
  }

  /** Any run of leading zeros leaves the value of a digit string as it is. */
  lemma {:induction false} ZerosValue(z: string, d: string)
    requires Zeros(z) && d != [] && AllDigits(d)
    ensures AllDigits(z + d) && DigitsValue(z + d) == DigitsValue(d)
    decreases |z|
  {
    if z == [] {
      assert z + d == d;
    } else {
      ZerosValue(z[1..], d);
      assert z + d == "0" + (z[1..] + d);
      LeadingZero(z[1..] + d);
    }
  }

  /**
   `int()` of a sign, any zero padding and the digits of `n` is `n`, negated
   after `-`: so `+33` and `033` read as 33 and `-0` as 0.
   */
  lemma ParsePaddedInt(sign: string, z: string, n: nat)
    requires sign == "" || sign == "+" || sign == "-"
    requires Zeros(z)
    ensures ParseInt(sign + z + FormatNat(n)) == Some(if sign == "-" then -(n as int) else n as int)
  {
    var f := FormatNat(n);
    ZerosValue(z, f);
    ParseSigned(sign, z + f);
    assert sign + z + f == sign + (z + f);
  }

  /** `int()` of a sign and digits is the digits' value, negated after `-`. */
  lemma ParseSigned(sign: string, d: string)
    requires sign == "" || sign == "+" || sign == "-"
    requires d != [] && AllDigits(d)
    ensures ParseInt(sign + d) == Some(if sign == "-" then -(DigitsValue(d) as int) else DigitsValue(d) as int)
  {
    var s := sign + d;
    if sign == "" {
      assert s == d;
    } else {
      assert s[0] == sign[0] && s[1..] == d;
    }
  }

  /** The first digit of a digit string bounds its value from below. */
  lemma {:induction false} FirstDigitBound(d: string)
    requires d != [] && AllDigits(d)
    ensures DigitsValue(d) >= DigitValue(d[0])
    decreases |d|
  {
    if |d| > 1 {
      var p := d[..|d| - 1];
      assert p[0] == d[0];
      FirstDigitBound(p);
    }
  }

  /** A digit string without a leading zero is the rendering of its own value. */
  lemma {:induction false} CanonicalDigits(d: string)
    requires d != [] && AllDigits(d) && (d[0] != '0' || |d| == 1)
    ensures FormatNat(DigitsValue(d)) == d
    decreases |d|
  {
    var c := d[|d| - 1];
    var p := d[..|d| - 1];
    if |d| == 1 {
      assert p == [];
      assert DigitChar(DigitValue(c)) == c;
      assert d == [c];
    } else {
      assert p[0] == d[0];
      CanonicalDigits(p);
      FirstDigitBound(p);
      var n := DigitsValue(d);
      assert n == 10 * DigitsValue(p) + DigitValue(c);
      assert n / 10 == DigitsValue(p) && n % 10 == DigitValue(c);
      assert DigitChar(DigitValue(c)) == c;
      assert d == p + [c];
    }
  }

  /** The zeros that pad a digit string on the left of the rendering of its value. */
  function ZeroPadding(d: string): (z: string)
    requires d != [] && AllDigits(d)
    ensures Zeros(z) && d == z + FormatNat(DigitsValue(d))
    decreases |d|
  {
    if d[0] == '0' && |d| > 1 then
      var z := ZeroPadding(d[1..]);
      PadStep(d, z);
      "0" + z
    else
      CanonicalDigits(d);
      assert d == "" + FormatNat(DigitsValue(d));
      ""
  }

  lemma PadStep(d: string, z: string)
    requires |d| > 1 && d[0] == '0' && AllDigits(d) && Zeros(z)
    requires d[1..] == z + FormatNat(DigitsValue(d[1..]))
    ensures Zeros("0" + z) && d == "0" + z + FormatNat(DigitsValue(d))
  {
    var tail := d[1..];
    var f := FormatNat(DigitsValue(tail));
    ZerosCons(z);
    LeadingZero(tail);
    assert d == "0" + tail;
    PadValue(d, z, tail, f);
  }

  lemma PadValue(d: string, z: string, tail: string, f: string)
    requires |d| > 1 && tail == d[1..] && d[0] == '0' && tail == z + f
    ensures d == "0" + z + f
  {
    assert d == "0" + tail;
  }

  lemma ZerosCons(z: string)
    requires Zeros(z)
    ensures Zeros("0" + z)
  {
    forall i | 0 <= i < |"0" + z| ensures ("0" + z)[i] == '0' {
      if i > 0 { assert ("0" + z)[i] == z[i - 1]; }
    }
  }

  /** The sign a numeral starts with, or nothing. */
  function SignOf(s: string): (sign: string)
    ensures sign == "" || sign == "+" || sign == "-"
    ensures sign != [] <==> s != [] && (s[0] == '-' || s[0] == '+')
  {
    if s == [] then ""
    else if s[0] == '-' then "-"
    else if s[0] == '+' then "+"
    else ""
  }

  /**
   Every literal `int()` accepts is a sign, zero padding and the rendering of
   a natural number, and reads as that number, negated after `-`.
   */
  lemma EveryIntLiteralIsPadded(s: string)
    requires IsIntLiteral(s)
    ensures
      var sign := SignOf(s);
      var d := s[|sign|..];
      && d != [] && AllDigits(d)
      && s == sign + ZeroPadding(d) + FormatNat(DigitsValue(d))
      && ParseInt(s) == Some(if sign == "-" then -(DigitsValue(d) as int) else DigitsValue(d) as int)
  {
    var sign := SignOf(s);
    var d := s[|sign|..];
    SignThenDigits(s);
    var z := ZeroPadding(d);
    assert s == sign + (z + FormatNat(DigitsValue(d)));
    assert sign + (z + FormatNat(DigitsValue(d))) == sign + z + FormatNat(DigitsValue(d));
    ParsePaddedInt(sign, z, DigitsValue(d));
  }

  lemma SignThenDigits(s: string)
    requires IsIntLiteral(s)
    ensures s[|SignOf(s)|..] != [] && AllDigits(s[|SignOf(s)|..])
    ensures s == SignOf(s) + s[|SignOf(s)|..]
  {
    if SignOf(s) != [] {
      assert SignOf(s) == s[..1];
    }
  }

  /** `c` equals the lower-case ASCII letter `l`, ignoring case. */
  predicate SameLetter(c: char, l: char)
    requires 'a' <= l <= 'z'
  {
    c == l || c as int == l as int - 32
  }

  /** ASCII case-insensitive comparison with a lower-case word. */
  predicate EqualsIgnoreCase(s: string, word: string)
    requires forall i :: 0 <= i < |word| ==> 'a' <= word[i] <= 'z'
  {
    |s| == |word| && forall i :: 0 <= i < |s| ==> SameLetter(s[i], word[i])
  }

  /** Length of the leading run of digits. */
  function DigitRun(s: string): (n: nat)
    ensures n <= |s| && AllDigits(s[..n])
    ensures n < |s| ==> !IsDigit(s[n])
  {
    if s == [] || !IsDigit(s[0]) then 0
    else
      var k := DigitRun(s[1..]);
      assert s[..1 + k] == [s[0]] + s[1..][..k];
      1 + k
  }

  /** Position of the first exponent marker `e`/`E`, or `|s|`. */
  function ExponentAt(s: string): (n: nat)
    ensures n <= |s|
    ensures n < |s| ==> s[n] == 'e' || s[n] == 'E'
  {
    if s == [] then 0
    else if s[0] == 'e' || s[0] == 'E' then 0
    else 1 + ExponentAt(s[1..])
  }

  /** `digits`, `digits.`, `digits.digits` or `.digits`. */
  predicate IsMantissa(m: string) {
    var i := DigitRun(m);
    (i == |m| && i > 0)
    || (i < |m| && m[i] == '.' && AllDigits(m[i + 1..]) && (i > 0 || i + 1 < |m|))
  }

  /** Empty, or `e`/`E` followed by an `int()` literal. */
  predicate IsExponent(x: string) {
    x == [] || ((x[0] == 'e' || x[0] == 'E') && IsIntLiteral(x[1..]))
  }

  /** A literal Python's `float()` accepts, once whitespace is split away. */
  predicate IsFloatLiteral(s: string) {
    var u := if s != [] && (s[0] == '-' || s[0] == '+') then s[1..] else s;
    EqualsIgnoreCase(u, "inf") || EqualsIgnoreCase(u, "infinity") || EqualsIgnoreCase(u, "nan")
    || (var j := ExponentAt(u); IsMantissa(u[..j]) && IsExponent(u[j..]))
  }

  lemma {:induction false} DigitRunOfDigits(d: string, rest: string)
    requires AllDigits(d) && (rest == [] || !IsDigit(rest[0]))
    ensures DigitRun(d + rest) == |d|
    decreases |d|
  {
    if d == [] {
      assert d + rest == rest;
    } else {
      assert (d + rest)[0] == d[0] && (d + rest)[1..] == d[1..] + rest;
      DigitRunOfDigits(d[1..], rest);
    }
  }

  lemma {:induction false} NoExponentMarker(s: string)
    requires forall i :: 0 <= i < |s| ==> s[i] != 'e' && s[i] != 'E'
    ensures ExponentAt(s) == |s|
    decreases |s|
  {
    if s != [] {
      NoExponentMarker(s[1..]);
    }
  }

  /** A fixed-point numeral `digits.digits`, as wsprd prints dt and frequency, reads as a float. */
  lemma PointLiteralIsFloat(whole: string, frac: string)
    requires whole != [] && AllDigits(whole) && AllDigits(frac)
    ensures IsFloatLiteral(whole + "." + frac)
  {
    var s := whole + "." + frac;
    assert s[0] == whole[0];
    assert s == whole + ("." + frac);
    DigitRunOfDigits(whole, "." + frac);
    forall i | 0 <= i < |s| ensures s[i] != 'e' && s[i] != 'E' {
      if i < |whole| { assert s[i] == whole[i]; }
      else if i > |whole| { assert s[i] == frac[i - |whole| - 1]; }
    }
    NoExponentMarker(s);
    assert s[..|s|] == s && s[|s|..] == [];
    assert s[|whole| + 1..] == frac;
  }
}

=== FILE: deferral.dfy ===
/**
 Work handed off to a worker thread so that blocking filesystem calls never
 run on the event loop. A deferred task is only queued; running the queue
 executes every task in the order it was queued and then empties the queue.
 The filesystem is the set of paths that exist.
 */
module Deferral {

  type FileSystem = set<string>

  /** The only work the decoder hands off: removing one file. */
  datatype Task = Unlink(path: string)

  /** What a task's deferred result reports. A path already gone is not an error. */
  datatype TaskResult = Removed | AlreadyGone

  /** Hand a task to the worker: it is queued behind the ones already waiting. */
  function Defer(queue: seq<Task>, t: Task): (q: seq<Task>)
    ensures |q| == |queue| + 1 && q[..|queue|] == queue && q[|queue|] == t
  {
    queue + [t]
  }

  function RunTask(fs: FileSystem, t: Task): (r: (FileSystem, TaskResult))
    ensures r.0 == fs - {t.path}
    ensures r.1 == Removed <==> t.path in fs
  {
    if t.path in fs then (fs - {t.path}, Removed) else (fs, AlreadyGone)
  }

  /** The paths that the tasks queued in `queue` remove. */
  function Targets(queue: seq<Task>): (r: set<string>)
    ensures forall p :: p in r <==> Unlink(p) in queue
  {
    set t | t in queue :: t.path
  }

  /** Run the queued tasks one after another, front first. */
  function RunAll(fs: FileSystem, queue: seq<Task>): (r: (FileSystem, seq<TaskResult>))
    ensures r.0 == fs - Targets(queue)
    ensures |r.1| == |queue|
    ensures forall i :: 0 <= i < |queue| ==>
      (r.1[i] == Removed <==> queue[i].path in fs - Targets(queue[..i]))
    decreases |queue|
  {
    if queue == [] then (fs, [])
    else
      var (fs1, first) := RunTask(fs, queue[0]);
      var (fs2, rest) := RunAll(fs1, queue[1..]);
      RunAllStep(fs, queue);
      (fs2, [first] + rest)
  }

  lemma RunAllStep(fs: FileSystem, queue: seq<Task>)
    requires queue != []
    ensures Targets(queue) == {queue[0].path} + Targets(queue[1..])
    ensures forall i :: 1 <= i <= |queue| ==>
      Targets(queue[..i]) == {queue[0].path} + Targets(queue[1..][..i - 1])
  {
    assert queue == [queue[0]] + queue[1..];
    forall i | 1 <= i <= |queue|
      ensures Targets(queue[..i]) == {queue[0].path} + Targets(queue[1..][..i - 1])
    {
      assert queue[..i] == [queue[0]] + queue[1..][..i - 1];
    }
  }

  /** The worker's queue of deferred tasks and the filesystem they act on. */
  datatype Worker = Worker(fs: FileSystem, queue: seq<Task>)

  /**
   Run every queued task in order, then forget them: afterwards the queue is
   empty and exactly the targeted paths are gone; nothing else changes.
   */
  function RunThreads(w: Worker): (r: (Worker, seq<TaskResult>))
    ensures r.0.queue == []
    ensures forall p :: p in r.0.fs <==> p in w.fs && Unlink(p) !in w.queue
    ensures |r.1| == |w.queue|
  {
    var (fs, results) := RunAll(w.fs, w.queue);
    (Worker(fs, []), results)
  }

  /** Deleting twice is harmless: the second task finds the path gone. */
  lemma UnlinkIdempotent(fs: FileSystem, p: string)
    ensures RunAll(fs, [Unlink(p), Unlink(p)]) == (fs - {p}, [if p in fs then Removed else AlreadyGone, AlreadyGone])
  {
    var q := [Unlink(p), Unlink(p)];
    assert q[..0] == [] && q[..1] == [Unlink(p)];
    assert Targets(q) == {p} && Targets(q[..1]) == {p} && Targets(q[..0]) == {};
    var r := RunAll(fs, q);
    assert r.1 == [r.1[0], r.1[1]];
  }
}

=== FILE: demodulator.dfy ===
/**
 The WSPR demodulator's lifetime: it creates a private scratch directory
 for the segment files, hands it to its interval listener, and on close
 removes the directory with everything still inside it. Removal tolerates
 the directory, or any file in it, being gone already.
 */
module Demodulator {
  import Deferral
  import Listener

  datatype Demodulator = Demodulator(tempdir: string)

  /**
   `p` is `dir` itself or lies somewhere beneath it: past `dir` comes a
   slash, unless `dir` is written with its own trailing slash.
   */
  predicate Under(p: string, dir: string) {
    || p == dir
    || (|p| > |dir| && p[..|dir|] == dir && (p[|dir|] == '/' || (dir != [] && dir[|dir| - 1] == '/')))
  }

  /** Construction: the scratch directory the provisioning capability made now exists, and nothing else is created. */
  function Create(fs: Deferral.FileSystem, tempdir: string): (r: (Demodulator, Deferral.FileSystem))
    ensures r.0.tempdir == tempdir && tempdir in r.1
    ensures forall p :: p in fs ==> p in r.1
    ensures forall p :: p in r.1 ==> p in fs || p == tempdir
  {
    (Demodulator(tempdir), fs + {tempdir})
  }

  /** The listener writes its segments to the scratch directory. */
  function IntervalListener(d: Demodulator, audioFrequency: int): (l: Listener.Listener)
    ensures l.directory == d.tempdir && l.audioFrequency == audioFrequency
    ensures l.recordingFrequency.None?
  {
    Listener.NewListener(d.tempdir, audioFrequency)
  }

  /**
   Close: the scratch directory and everything beneath it are gone, and no
   other path is touched. There is no failure outcome: what is already gone
   stays gone.
   */
  function Close(d: Demodulator, fs: Deferral.FileSystem): (r: Deferral.FileSystem)
    ensures d.tempdir !in r
    ensures forall p :: p in r ==> !Under(p, d.tempdir)
    ensures forall p :: p in fs && !Under(p, d.tempdir) ==> p in r
    ensures r <= fs
  {
    set p | p in fs && !Under(p, d.tempdir)
  }

  /** Closing twice, or after the directory vanished, changes nothing more. */
  lemma CloseIdempotent(d: Demodulator, fs: Deferral.FileSystem)
    ensures Close(d, Close(d, fs)) == Close(d, fs)
  {
  }

  /** If nothing of the scratch directory is left, closing leaves the filesystem as it is. */
  lemma CloseWhenAlreadyDeleted(d: Demodulator, fs: Deferral.FileSystem)
    requires forall p :: p in fs ==> !Under(p, d.tempdir)
    ensures Close(d, fs) == fs
  {
  }

  /** The directory exists from construction until close, and not after. */
  lemma TemporaryDirectoryLifetime(fs: Deferral.FileSystem, tempdir: string)
    ensures
      var (d, fs1) := Create(fs, tempdir);
      tempdir in fs1 && tempdir !in Close(d, fs1)
  {
  }

  /**
   Every segment file the demodulator's listener names lies in the scratch
   directory, whether or not that is written with a trailing slash.
   */
  lemma SegmentsInTempdir(d: Demodulator, audioFrequency: int, frequency: int, t: int)
    requires d.tempdir != []
    ensures Under(Listener.Filename(IntervalListener(d, audioFrequency), frequency, t), d.tempdir)
  {
    var name := Listener.SegmentName(frequency, t);
    var path := Listener.Filename(IntervalListener(d, audioFrequency), frequency, t);
    assert |name| >= 16 && |path| > |d.tempdir|;
  }

  /**
   A pending deletion and close may run in either order: a segment file in
   the scratch directory ends up gone either way, and nothing else differs.
   */
  lemma CloseAndDeletionCommute(d: Demodulator, fs: Deferral.FileSystem, segment: string)
    requires Under(segment, d.tempdir)
    ensures Deferral.RunTask(Close(d, fs), Deferral.Unlink(segment)).0 == Close(d, fs)
    ensures Close(d, Deferral.RunTask(fs, Deferral.Unlink(segment)).0) == Close(d, fs)
  {
  }
}

=== FILE: fields.dfy ===
/**
 Splitting a line into whitespace-separated fields, as Python 2's
 argument-less `str.split()` does on a byte string: runs of whitespace
 separate fields, and leading or trailing whitespace yields no empty field.
 */
module Fields {

  /** The ASCII whitespace bytes `str.split()` separates on. */
  predicate IsSpace(c: char) {
    c == ' ' || c == '\t' || c == '\n' || c == '\r' || c == '\U{0B}' || c == '\U{0C}'
  }

  predicate AllSpace(s: string) {
    forall i :: 0 <= i < |s| ==> IsSpace(s[i])
  }

  /** A field: a non-empty run of non-whitespace characters. */
  predicate IsField(w: string) {
    w != [] && forall i :: 0 <= i < |w| ==> !IsSpace(w[i])
  }

  /** Length of the leading run of non-whitespace characters of `s`. */
  function RunLength(s: string): (n: nat)
    ensures n <= |s|
    ensures forall i :: 0 <= i < n ==> !IsSpace(s[i])
    ensures n < |s| ==> IsSpace(s[n])
  {
    if s == [] || IsSpace(s[0]) then 0 else 1 + RunLength(s[1..])
  }

  /** The fields of `s`, in order. */
  function Split(s: string): (r: seq<string>)
    ensures forall i :: 0 <= i < |r| ==> IsField(r[i])
    decreases |s|
  {
    if s == [] then []
    else if IsSpace(s[0]) then Split(s[1..])
    else
      var n := RunLength(s);
      [s[..n]] + Split(s[n..])
  }

  /** The fields of `ws` joined by single spaces: the inverse of `Split`. */
  function Unsplit(ws: seq<string>): string {
    if ws == [] then ""
    else if |ws| == 1 then ws[0]
    else ws[0] + " " + Unsplit(ws[1..])
  }

  lemma {:induction false} SplitLeadingSpace(pad: string, s: string)
    requires AllSpace(pad)
    ensures Split(pad + s) == Split(s)
    decreases |pad|
  {
    if pad != [] {
      assert (pad + s)[0] == pad[0];
      assert (pad + s)[1..] == pad[1..] + s;
      SplitLeadingSpace(pad[1..], s);
    } else {
      assert pad + s == s;
    }
  }

  /** A field followed by at least one whitespace character is split off whole. */
  lemma FieldThenSpace(w: string, sep: string, rest: string)
    requires IsField(w) && sep != [] && AllSpace(sep)
    ensures Split(w + sep + rest) == [w] + Split(rest)
  {
    var s := w + sep + rest;
    RunOfField(w, sep + rest);
    assert s == w + (sep + rest);
    assert s[..|w|] == w;
    assert s[|w|..] == sep + rest;
    SplitLeadingSpace(sep, rest);
  }

  /** A field at the very end of the line (possibly followed by whitespace). */
  lemma FieldAtEnd(w: string, pad: string)
    requires IsField(w) && AllSpace(pad)
    ensures Split(w + pad) == [w]
  {
    RunOfField(w, pad);
    assert (w + pad)[..|w|] == w;
    assert (w + pad)[|w|..] == pad;
    SplitLeadingSpace(pad, "");
    assert pad + "" == pad;
  }

  lemma {:induction false} RunOfField(w: string, rest: string)
    requires forall i :: 0 <= i < |w| ==> !IsSpace(w[i])
    requires rest == [] || IsSpace(rest[0])
    ensures RunLength(w + rest) == |w|
    decreases |w|
  {
    if w != [] {
      assert (w + rest)[1..] == w[1..] + rest;
      RunOfField(w[1..], rest);
    } else {
      assert w + rest == rest;
    }
  }

  /** Joining fields with single spaces and splitting again gives the fields back. */
  lemma {:induction false} SplitUnsplit(ws: seq<string>)
    requires forall i :: 0 <= i < |ws| ==> IsField(ws[i])
    ensures Split(Unsplit(ws)) == ws
    decreases |ws|
  {
    if |ws| == 1 {
      FieldAtEnd(ws[0], "");
      assert ws[0] + "" == ws[0];
    } else if |ws| > 1 {
      SplitUnsplit(ws[1..]);
      FieldThenSpace(ws[0], " ", Unsplit(ws[1..]));
      assert [ws[0]] + ws[1..] == ws;
    }
  }

  /** Every field of `s` is a field, and `s` re-joined has the same fields. */
  lemma SplitIsCanonical(s: string)
    ensures Split(Unsplit(Split(s))) == Split(s)
  {
    SplitUnsplit(Split(s));
  }

  /** Fields `ws` separated by the whitespace runs `seps`, as a decoder pads its columns. */
  function Interleave(ws: seq<string>, seps: seq<string>): string
    requires |ws| == |seps| + 1
    decreases |seps|
  {
    if seps == [] then ws[0] else ws[0] + seps[0] + Interleave(ws[1..], seps[1..])
  }

  /** However wide the whitespace between fields, splitting finds exactly the fields. */
  lemma {:induction false} SplitInterleave(ws: seq<string>, seps: seq<string>)
    requires |ws| == |seps| + 1
    requires forall i :: 0 <= i < |ws| ==> IsField(ws[i])
    requires forall i :: 0 <= i < |seps| ==> seps[i] != [] && AllSpace(seps[i])
    ensures Split(Interleave(ws, seps)) == ws
    decreases |seps|
  {
    if seps == [] {
      FieldAtEnd(ws[0], "");
      assert ws[0] + "" == ws[0];
    } else {
      SplitInterleave(ws[1..], seps[1..]);
      FieldThenSpace(ws[0], seps[0], Interleave(ws[1..], seps[1..]));
      assert [ws[0]] + ws[1..] == ws;
    }
  }
}

=== FILE: line_buffer.dfy ===
/**
 Reassembly of the decoder's output into lines. Output arrives in chunks cut
 at arbitrary points; each chunk is appended to the text held back so far,
 every newline-terminated line is split off, and whatever follows the last
 newline is held back for the next chunk.
 */
module LineBuffer {

  predicate NoNewline(s: string) {
    forall i :: 0 <= i < |s| ==> s[i] != '\n'
  }

  predicate AllLines(lines: seq<string>) {
    forall i :: 0 <= i < |lines| ==> NoNewline(lines[i])
  }

  lemma NoNewlineConcat(a: string, b: string)
    requires NoNewline(a) && NoNewline(b)
    ensures NoNewline(a + b)
  {
    forall i | 0 <= i < |a + b| ensures (a + b)[i] != '\n' {
      if i >= |a| { assert (a + b)[i] == b[i - |a|]; }
    }
  }

  /** Each line followed by its newline, concatenated: the text the lines came from. */
  function Terminated(lines: seq<string>): string {
    if lines == [] then "" else lines[0] + "\n" + Terminated(lines[1..])
  }

  /** Position of the first newline in `s`, or `|s|` if there is none. */
  function LineEnd(s: string): (n: nat)
    ensures n <= |s| && NoNewline(s[..n])
    ensures n < |s| ==> s[n] == '\n'
  {
    if s == [] || s[0] == '\n' then 0
    else
      var k := LineEnd(s[1..]);
      assert s[..1 + k] == [s[0]] + s[1..][..k];
      1 + k
  }

  /** The complete lines of `s`, in order, and the unterminated text after them. */
  function SplitLines(s: string): (r: (seq<string>, string))
    ensures AllLines(r.0) && NoNewline(r.1)
    ensures s == Terminated(r.0) + r.1
    decreases |s|
  {
    var n := LineEnd(s);
    if n == |s| then
      assert s[..n] == s;
      assert Terminated([]) + s == s;
      ([], s)
    else
      var tail := SplitLines(s[n + 1..]);
      SplitStep(s, n, tail.0, tail.1);
      ([s[..n]] + tail.0, tail.1)
  }

  lemma SplitStep(s: string, n: nat, lines: seq<string>, rest: string)
    requires n < |s| && s[n] == '\n' && NoNewline(s[..n])
    requires AllLines(lines) && s[n + 1..] == Terminated(lines) + rest
    ensures AllLines([s[..n]] + lines)
    ensures s == Terminated([s[..n]] + lines) + rest
  {
    ConsLine(s[..n], lines);
    assert s == s[..n] + "\n" + s[n + 1..];
  }

  lemma ConsLine(l: string, t: seq<string>)
    requires NoNewline(l) && AllLines(t)
    ensures AllLines([l] + t)
    ensures Terminated([l] + t) == l + "\n" + Terminated(t)
  {
    var ls := [l] + t;
    assert ls[1..] == t;
    assert forall i :: 1 <= i < |ls| ==> ls[i] == t[i - 1];
  }

  lemma {:induction false} TerminatedAppend(a: seq<string>, b: seq<string>)
    ensures Terminated(a + b) == Terminated(a) + Terminated(b)
    decreases |a|
  {
    if a == [] {
      assert a + b == b;
    } else {
      assert (a + b)[1..] == a[1..] + b;
      TerminatedAppend(a[1..], b);
    }
  }

  lemma {:induction false} LineEndOf(l: string, rest: string)
    requires NoNewline(l) && rest != [] && rest[0] == '\n'
    ensures LineEnd(l + rest) == |l|
    decreases |l|
  {
    if l == [] {
      assert l + rest == rest;
    } else {
      assert (l + rest)[0] == l[0];
      assert (l + rest)[1..] == l[1..] + rest;
      LineEndOf(l[1..], rest);
    }
  }

  /** Splitting recovers the lines and the held-back text it was built from. */
  lemma {:induction false} SplitTerminated(lines: seq<string>, rest: string)
    requires AllLines(lines) && NoNewline(rest)
    ensures SplitLines(Terminated(lines) + rest) == (lines, rest)
    decreases |lines|
  {
    var s := Terminated(lines) + rest;
    if lines == [] {
      assert s == rest;
    } else {
      var l := lines[0];
      var t := Terminated(lines[1..]) + rest;
      assert s == l + ("\n" + t);
      assert s[..|l|] == l;
      assert s[|l|] == '\n';
      LineEndOf(l, "\n" + t);
      assert s[|l| + 1..] == t;
      SplitTerminated(lines[1..], rest);
      assert [l] + lines[1..] == lines;
    }
  }

  /** The lines a chunk completes, and the new held-back text. */
  function Feed(held: string, chunk: string): (r: (seq<string>, string))
    ensures held + chunk == Terminated(r.0) + r.1
    ensures AllLines(r.0) && NoNewline(r.1)
  {
    SplitLines(held + chunk)
  }

  /** A chunk without a newline completes no line; it is only held back. */
  lemma FeedWithoutNewline(held: string, chunk: string)
    requires NoNewline(held) && NoNewline(chunk)
    ensures Feed(held, chunk) == ([], held + chunk)
  {
    var s := held + chunk;
    assert NoNewline(s) by {
      forall i | 0 <= i < |s| ensures s[i] != '\n' {
        if i >= |held| { assert s[i] == chunk[i - |held|]; }
      }
    }
    SplitTerminated([], s);
    assert Terminated([]) + s == s;
  }

  /**
   Where a chunk is cut makes no difference: feeding `c1` then `c2` completes
   the same lines, in the same order, and holds back the same text as feeding
   `c1 + c2` at once.
   */
  lemma FeedSplit(held: string, c1: string, c2: string)
    ensures
      var (l1, r1) := Feed(held, c1);
      var (l2, r2) := Feed(r1, c2);
      Feed(held, c1 + c2) == (l1 + l2, r2)
  {
    var (l1, r1) := Feed(held, c1);
    var (l2, r2) := Feed(r1, c2);
    Regroup(held, c1, c2, l1, r1, l2, r2);
    SplitTerminated(l1 + l2, r2);
  }

  /** The text of two successive feeds, regrouped as the lines of both and the final remainder. */
  lemma Regroup(held: string, c1: string, c2: string, l1: seq<string>, r1: string, l2: seq<string>, r2: string)
    requires held + c1 == Terminated(l1) + r1 && r1 + c2 == Terminated(l2) + r2
    ensures held + (c1 + c2) == Terminated(l1 + l2) + r2
  {
    calc {
      held + (c1 + c2);
      (held + c1) + c2;
      (Terminated(l1) + r1) + c2;
      Terminated(l1) + (r1 + c2);
      Terminated(l1) + (Terminated(l2) + r2);
      { TerminatedAppend(l1, l2); }
      Terminated(l1 + l2) + r2;
    }
  }

  /** Feed a sequence of chunks in arrival order. */
  function FeedAll(held: string, chunks: seq<string>): (r: (seq<string>, string))
    ensures NoNewline(r.1)
    decreases |chunks|
  {
    if chunks == [] then SplitLines(held)
    else
      var (l1, r1) := Feed(held, chunks[0]);
      var (l2, r2) := FeedAll(r1, chunks[1..]);
      (l1 + l2, r2)
  }

  function Concat(chunks: seq<string>): string {
    if chunks == [] then "" else chunks[0] + Concat(chunks[1..])
  }

  /** Any cutting of a stream into chunks yields the lines of the whole stream. */
  lemma {:induction false} FeedAllIsFeedConcat(held: string, chunks: seq<string>)
    requires NoNewline(held)
    ensures FeedAll(held, chunks) == Feed(held, Concat(chunks))
    decreases |chunks|
  {
    if chunks == [] {
      assert held + "" == held;
    } else {
      var (l1, r1) := Feed(held, chunks[0]);
      FeedAllIsFeedConcat(r1, chunks[1..]);
      FeedSplit(held, chunks[0], Concat(chunks[1..]));
    }
  }
}

=== FILE: listener.dfy ===
/**
 The WAV interval listener. The audio pipeline tells it when a segment file
 is opened and when it is closed. On open it remembers the receiver's
 frequency; on close it starts one wsprd run on the file, but only if the
 frequency has not changed meanwhile, so that no spot is reported on a
 band it was not heard on. It also names the segment files.

 The frequency authority, the clock and the executable locator are not part
 of the model. The frequency and the clock reading are passed in with each
 event; the locator's answer is one parameter for a whole sequence of events.
 */
module Listener {
  import opened Optional
  import opened Decimal
  import opened Calendar
  import opened Protocol

  datatype Listener = Listener(
    directory: string,               // where segment files live; wsprd's working directory
    audioFrequency: int,             // Hz of audio offset between dial and received frequency
    recordingFrequency: Option<int>) // receiver frequency when the current segment opened

  function NewListener(directory: string, audioFrequency: int): Listener {
    Listener(directory, audioFrequency, None)
  }

  /** `n` as two decimal digits, zero-padded (`%02d` for 0 <= n < 100). */
  function TwoDigits(n: int): (s: string)
    requires 0 <= n < 100
    ensures |s| == 2 && AllDigits(s) && DigitsValue(s) == n && TwoDigitsAt(s, 0) == n
  {
    var s := [DigitChar(n / 10), DigitChar(n % 10)];
    assert s[..1] == [s[0]] && s[..1][..0] == [];
    assert DigitsValue(s[..1]) == n / 10;
    assert DigitsValue(s) == 10 * DigitsValue(s[..1]) + n % 10;
    s
  }

  /** `_YYMMDD_HHMM.wav` for the UTC time `u`. */
  function StampText(u: UtcTime): string
    requires ValidTime(u)
  {
    "_" + TwoDigits(u.date.year % 100) + TwoDigits(u.date.month) + TwoDigits(u.date.day) + "_"
    + TwoDigits(u.hour) + TwoDigits(u.minute) + ".wav"
  }

  /**
   `frequency_YYMMDD_HHMM.wav`, the fields being the UTC time of `t`: the name
   reads back as the frequency and the two-digit year, month, day, hour and
   minute of its start time.
   */
  function SegmentName(frequency: int, t: int): (name: string)
    ensures |name| >= 16 && name[..|name| - 16] == FormatInt(frequency)
    ensures
      var u := Gmtime(t);
      ParseSegmentName(name)
        == Some(Stamp(frequency, u.date.year % 100, u.date.month, u.date.day, u.hour, u.minute))
  {
    var u := Gmtime(t);
    StampTextReads(u);
    ParseFormatInt(frequency);
    ParseJoinedName(FormatInt(frequency), StampText(u), frequency);
    FormatInt(frequency) + StampText(u)
  }

  /** POSIX `os.path.join(dir, name)` for a relative `name`. */
  function PathJoin(dir: string, name: string): (path: string)
    ensures |dir| + |name| <= |path| && path[..|dir|] == dir && path[|path| - |name|..] == name
    ensures dir == [] || dir[|dir| - 1] == '/' ==> |path| == |dir| + |name|
    ensures dir != [] && dir[|dir| - 1] != '/' ==> |path| == |dir| + 1 + |name| && path[|dir|] == '/'
  {
    if dir == [] || dir[|dir| - 1] == '/' then dir + name else dir + "/" + name
  }

  /** The path of the segment recorded at `frequency` Hz starting at unix time `t`. */
  function Filename(l: Listener, frequency: int, t: int): (path: string)
    ensures
      var name := SegmentName(frequency, t);
      var dir := l.directory;
      && |dir| + |name| <= |path| && path[..|dir|] == dir && path[|path| - |name|..] == name
      && (dir == [] || dir[|dir| - 1] == '/' ==> |path| == |dir| + |name|)
      && (dir != [] && dir[|dir| - 1] != '/' ==> |path| == |dir| + 1 + |name| && path[|dir|] == '/')
  {
    PathJoin(l.directory, SegmentName(frequency, t))
  }

  /** A segment lands directly inside the listener's directory, separated by one slash. */
  lemma FilenameInDirectory(l: Listener, frequency: int, t: int)
    requires l.directory != [] && l.directory[|l.directory| - 1] != '/'
    ensures Filename(l, frequency, t) == l.directory + "/" + SegmentName(frequency, t)
  {
  }

  /** The fields a segment name carries. */
  datatype Stamp = Stamp(frequency: int, yy: int, month: int, day: int, hour: int, minute: int)

  /** The two-digit number at positions `i` and `i + 1` of `s`. */
  function TwoDigitsAt(s: string, i: nat): (n: int)
    requires i + 1 < |s| && IsDigit(s[i]) && IsDigit(s[i + 1])
    ensures 0 <= n < 100
  {
    10 * DigitValue(s[i]) + DigitValue(s[i + 1])
  }

  /** `_YYMMDD_HHMM.wav`: the 16 characters that follow the frequency. */
  predicate IsStampSuffix(tail: string) {
    && |tail| == 16 && tail[0] == '_' && tail[7] == '_' && tail[12..] == ".wav"
    && IsDigit(tail[1]) && IsDigit(tail[2]) && IsDigit(tail[3])
    && IsDigit(tail[4]) && IsDigit(tail[5]) && IsDigit(tail[6])
    && IsDigit(tail[8]) && IsDigit(tail[9]) && IsDigit(tail[10]) && IsDigit(tail[11])
  }

  /** Read a segment name back into its fields; None if it is not one. */
  function ParseSegmentName(name: string): (r: Option<Stamp>)
    ensures r.Some? <==> |name| >= 17 && IsStampSuffix(name[|name| - 16..])
                         && IsIntLiteral(name[..|name| - 16])
  {
    if |name| < 17 || !IsStampSuffix(name[|name| - 16..]) then None
    else
      var k := |name| - 16;
      var tail := name[k..];
      match ParseInt(name[..k])
      case None => None
      case Some(f) =>
        Some(Stamp(f, TwoDigitsAt(tail, 1), TwoDigitsAt(tail, 3), TwoDigitsAt(tail, 5),
                   TwoDigitsAt(tail, 8), TwoDigitsAt(tail, 10)))
  }

  /** The stamp text of a time reads back as its two-digit year, month, day, hour and minute. */
  lemma StampTextReads(u: UtcTime)
    requires ValidTime(u)
    ensures
      var tail := StampText(u);
      && IsStampSuffix(tail)
      && TwoDigitsAt(tail, 1) == u.date.year % 100 && TwoDigitsAt(tail, 3) == u.date.month
      && TwoDigitsAt(tail, 5) == u.date.day && TwoDigitsAt(tail, 8) == u.hour
      && TwoDigitsAt(tail, 10) == u.minute
  {
    var yy, mo, dd := TwoDigits(u.date.year % 100), TwoDigits(u.date.month), TwoDigits(u.date.day);
    var hh, mi := TwoDigits(u.hour), TwoDigits(u.minute);
    StampSuffix(yy, mo, dd, hh, mi);
  }

  /** A frequency followed by a stamp suffix reads back as the frequency and the stamp's fields. */
  lemma ParseJoinedName(f: string, tail: string, frequency: int)
    requires IsStampSuffix(tail) && ParseInt(f) == Some(frequency)
    ensures ParseSegmentName(f + tail) == Some(Stamp(frequency, TwoDigitsAt(tail, 1), TwoDigitsAt(tail, 3),
                                                     TwoDigitsAt(tail, 5), TwoDigitsAt(tail, 8), TwoDigitsAt(tail, 10)))
  {
    var name := f + tail;
    var k := |name| - 16;
    assert name[..k] == f && name[k..] == tail;
  }

  lemma StampSuffix(yy: string, mo: string, dd: string, hh: string, mi: string)
    requires |yy| == 2 && |mo| == 2 && |dd| == 2 && |hh| == 2 && |mi| == 2
    requires AllDigits(yy) && AllDigits(mo) && AllDigits(dd) && AllDigits(hh) && AllDigits(mi)
    ensures
      var tail := "_" + yy + mo + dd + "_" + hh + mi + ".wav";
      && IsStampSuffix(tail)
      && TwoDigitsAt(tail, 1) == TwoDigitsAt(yy, 0)
      && TwoDigitsAt(tail, 3) == TwoDigitsAt(mo, 0)
      && TwoDigitsAt(tail, 5) == TwoDigitsAt(dd, 0)
      && TwoDigitsAt(tail, 8) == TwoDigitsAt(hh, 0)
      && TwoDigitsAt(tail, 10) == TwoDigitsAt(mi, 0)
  {
    var tail := "_" + yy + mo + dd + "_" + hh + mi + ".wav";
    assert tail[1] == yy[0] && tail[2] == yy[1] && tail[3] == mo[0] && tail[4] == mo[1];
    assert tail[5] == dd[0] && tail[6] == dd[1] && tail[8] == hh[0] && tail[9] == hh[1];
    assert tail[10] == mi[0] && tail[11] == mi[1];
    assert tail[12..] == ".wav";
  }

  /** What closing a segment leads to. */
  datatype CloseOutcome =
    | Discarded                      // the frequency changed while recording
    | Spawned(request: DecodeRequest)
    | ExecutableMissing              // wsprd could not be located: a configuration fault

  /** One wsprd run: its process protocol, executable, dial frequency in Hz and working directory. */
  datatype DecodeRequest = DecodeRequest(
    protocol: WsprdProtocol,
    executable: string,
    dialFrequency: int,
    workingDir: string)

  /** A segment file was opened while the receiver was at `rxFrequency` Hz. */
  function FileOpened(l: Listener, filename: string, rxFrequency: int): (r: Listener)
    ensures r.directory == l.directory && r.audioFrequency == l.audioFrequency
    ensures r.recordingFrequency == Some(rxFrequency)
  {
    l.(recordingFrequency := Some(rxFrequency))
  }

  /**
   A segment file was closed while the receiver is at `rxFrequency` Hz, the
   clock reads `now` and the locator found `wsprd`.
   */
  function FileClosed(l: Listener, filename: string, rxFrequency: int, now: real, wsprd: Option<string>)
    : (r: CloseOutcome)
    ensures r.Discarded? <==> l.recordingFrequency != Some(rxFrequency)
    ensures r.ExecutableMissing? <==> l.recordingFrequency == Some(rxFrequency) && wsprd.None?
    ensures r.Spawned? ==>
      && r.request.protocol == Start(filename, now)
      && Some(r.request.executable) == wsprd
      && r.request.dialFrequency + l.audioFrequency == rxFrequency
      && r.request.workingDir == l.directory
  {
    if l.recordingFrequency != Some(rxFrequency) then Discarded
    else
      match wsprd
      case None => ExecutableMissing
      case Some(path) => Spawned(DecodeRequest(Start(filename, now), path, rxFrequency - l.audioFrequency, l.directory))
  }

  /** A notification from the audio pipeline, with what the collaborators answer at that moment. */
  datatype Event =
    | Opened(filename: string, rxFrequency: int)
    | Closed(filename: string, rxFrequency: int, now: real)

  /** The listener and the wsprd runs it has started so far. */
  datatype Session = Session(listener: Listener, spawned: seq<DecodeRequest>, faults: nat)

  /**
   One event: an open only remembers the frequency; a close leaves the listener
   as it is and appends at most one run, set up from the closed segment, or
   counts one fault.
   */
  function Step(s: Session, e: Event, wsprd: Option<string>): (r: Session)
    ensures r.listener.directory == s.listener.directory
    ensures r.listener.audioFrequency == s.listener.audioFrequency
    ensures e.Opened? ==> r == s.(listener := s.listener.(recordingFrequency := Some(e.rxFrequency)))
    ensures e.Closed? ==> r.listener == s.listener
    ensures s.spawned <= r.spawned && |r.spawned| <= |s.spawned| + 1
    ensures s.faults <= r.faults <= s.faults + 1 && (r.faults == s.faults || r.spawned == s.spawned)
    ensures |r.spawned| > |s.spawned| ==>
      && e.Closed? && s.listener.recordingFrequency == Some(e.rxFrequency) && wsprd.Some?
      && r.spawned[|s.spawned|].protocol == Start(e.filename, e.now)
      && r.spawned[|s.spawned|].workingDir == s.listener.directory
  {
    match e
    case Opened(f, rx) => s.(listener := FileOpened(s.listener, f, rx))
    case Closed(f, rx, now) =>
      match FileClosed(s.listener, f, rx, now, wsprd)
      case Discarded => s
      case ExecutableMissing => s.(faults := s.faults + 1)
      case Spawned(req) => s.(spawned := s.spawned + [req])
  }

  /**
   A sequence of events: runs are only ever appended, at most one per event,
   none without an executable, and each works in the listener's directory.
   */
  function Run(s: Session, events: seq<Event>, wsprd: Option<string>): (r: Session)
    ensures r.listener.directory == s.listener.directory
    ensures r.listener.audioFrequency == s.listener.audioFrequency
    ensures s.spawned <= r.spawned && |r.spawned| <= |s.spawned| + |events|
    ensures s.faults <= r.faults
    ensures wsprd.None? ==> r.spawned == s.spawned
    ensures forall i :: |s.spawned| <= i < |r.spawned| ==> r.spawned[i].workingDir == s.listener.directory
    decreases |events|
  {
    if events == [] then s else Run(Step(s, events[0], wsprd), events[1..], wsprd)
  }

  /** Opening a segment starts nothing. */
  lemma OpenedSpawnsNothing(s: Session, filename: string, rx: int, wsprd: Option<string>)
    ensures Run(s, [Opened(filename, rx)], wsprd).spawned == s.spawned
  {
    assert [Opened(filename, rx)][1..] == [];
  }

  /** Open then close at one frequency starts exactly one run, set up from the segment. */
  lemma OpenThenCloseSpawnsOne(l: Listener, filename: string, rx: int, now: real, wsprd: string)
    ensures
      Run(Session(l, [], 0), [Opened(filename, rx), Closed(filename, rx, now)], Some(wsprd)).spawned
        == [DecodeRequest(Start(filename, now), wsprd, rx - l.audioFrequency, l.directory)]
  {
    var es := [Opened(filename, rx), Closed(filename, rx, now)];
    var w := Some(wsprd);
    var s1 := Step(Session(l, [], 0), es[0], w);
    var s2 := Step(s1, es[1], w);
    assert es[1..] == [Closed(filename, rx, now)] && es[1..][1..] == [];
    assert Run(s1, es[1..], w) == Run(s2, [], w) == s2;
  }

  predicate AllClosed(events: seq<Event>) {
    forall i :: 0 <= i < |events| ==> events[i].Closed?
  }

  /** How many of the close events come at frequency `rx`. */
  function ClosesAt(events: seq<Event>, rx: int): nat {
    if events == [] then 0
    else (if events[0].Closed? && events[0].rxFrequency == rx then 1 else 0) + ClosesAt(events[1..], rx)
  }

  /**
   After a segment opens at `rx`, each close that finds the receiver still at
   `rx` starts one run and every other close starts none.
   */
  lemma {:induction false} SpawnsOnlyAtOpeningFrequency(s: Session, rx: int, closes: seq<Event>, wsprd: string)
    requires s.listener.recordingFrequency == Some(rx) && AllClosed(closes)
    ensures |Run(s, closes, Some(wsprd)).spawned| == |s.spawned| + ClosesAt(closes, rx)
    ensures Run(s, closes, Some(wsprd)).listener == s.listener
    decreases |closes|
  {
    if closes != [] {
      var s1 := Step(s, closes[0], Some(wsprd));
      assert s1.listener == s.listener;
      assert AllClosed(closes[1..]) by {
        forall i | 0 <= i < |closes[1..]| ensures closes[1..][i].Closed? {
          assert closes[1..][i] == closes[i + 1];
        }
      }
      SpawnsOnlyAtOpeningFrequency(s1, rx, closes[1..], wsprd);
    }
  }

  /** If the frequency changed during the recording, the segment is never decoded. */
  lemma FrequencyChangeSpawnsNothing(l: Listener, filename: string, rx: int, closes: seq<Event>, wsprd: string)
    requires AllClosed(closes) && ClosesAt(closes, rx) == 0
    ensures Run(Session(l, [], 0), [Opened(filename, rx)] + closes, Some(wsprd)).spawned == []
  {
    var es := [Opened(filename, rx)] + closes;
    assert es[0] == Opened(filename, rx) && es[1..] == closes;
    var s1 := Step(Session(l, [], 0), es[0], Some(wsprd));
    SpawnsOnlyAtOpeningFrequency(s1, rx, closes, wsprd);
  }
}

=== FILE: optional.dfy ===
/** An optional value: the model's stand-in for Python's `None`. */
module Optional {

  datatype Option<+T> = None | Some(value: T)
}

=== FILE: protocol.dfy ===
/**
 The process protocol attached to one wsprd run: it owns the WAV file the
 run decodes, the decode time fixed when the run was started, and the
 partial output line held back between chunks. Every complete output line
 that parses becomes a spot for the consumer; when the process ends, one
 deletion of the WAV file is handed to the worker thread.
 */
module Protocol {
  import opened Optional
  import opened Spot
  import opened LineBuffer
  import Deferral

  datatype WsprdProtocol = WsprdProtocol(wavFilename: string, decodeTime: real, held: string)

  /** A protocol for a freshly started run: nothing is held back yet. */
  function Start(wavFilename: string, decodeTime: real): (p: WsprdProtocol)
    ensures p.wavFilename == wavFilename && p.decodeTime == decodeTime && p.held == ""
  {
    WsprdProtocol(wavFilename, decodeTime, "")
  }

  /** The spots of the lines that parse, in line order; the others are dropped. */
  function SpotsOf(decodeTime: real, lines: seq<string>): (r: seq<Spot>)
    ensures |r| <= |lines|
    ensures forall i :: 0 <= i < |r| ==> r[i].time == decodeTime
    decreases |lines|
  {
    if lines == [] then []
    else
      match ParseLine(decodeTime, lines[0])
      case Some(s) => [s] + SpotsOf(decodeTime, lines[1..])
      case None => SpotsOf(decodeTime, lines[1..])
  }

  /** Spots of consecutive stretches of lines are the spots of the whole, in order. */
  lemma {:induction false} SpotsOfAppend(decodeTime: real, a: seq<string>, b: seq<string>)
    ensures SpotsOf(decodeTime, a + b) == SpotsOf(decodeTime, a) + SpotsOf(decodeTime, b)
    decreases |a|
  {
    if a == [] {
      assert a + b == b;
    } else {
      assert (a + b)[0] == a[0] && (a + b)[1..] == a[1..] + b;
      SpotsOfAppend(decodeTime, a[1..], b);
    }
  }

  /** Every line yields its own spot when it parses and nothing when it does not. */
  lemma SpotsOfLine(decodeTime: real, line: string)
    ensures SpotsOf(decodeTime, [line]) ==
      match ParseLine(decodeTime, line)
      case Some(s) => [s]
      case None => []
  {
    assert [line][1..] == [];
  }

  /** A chunk of the decoder's standard output arrives. */
  function OutReceived(p: WsprdProtocol, data: string): (r: (WsprdProtocol, seq<Spot>))
    ensures r.0.wavFilename == p.wavFilename && r.0.decodeTime == p.decodeTime
    ensures NoNewline(r.0.held)
    ensures forall i :: 0 <= i < |r.1| ==> r.1[i].time == p.decodeTime
  {
    var (lines, held) := Feed(p.held, data);
    (p.(held := held), SpotsOf(p.decodeTime, lines))
  }

  /** A chunk that completes `lines` yields the spots of those lines and holds back what follows them. */
  lemma CompletedLines(p: WsprdProtocol, data: string, lines: seq<string>, rest: string)
    requires AllLines(lines) && NoNewline(rest)
    requires p.held + data == Terminated(lines) + rest
    ensures OutReceived(p, data) == (p.(held := rest), SpotsOf(p.decodeTime, lines))
  {
    SplitTerminated(lines, rest);
  }

  /** A freshly started run given whole lines yields exactly their spots and holds nothing back. */
  lemma StartOnWholeLines(wavFilename: string, decodeTime: real, lines: seq<string>)
    requires AllLines(lines)
    ensures OutReceived(Start(wavFilename, decodeTime), Terminated(lines))
              == (Start(wavFilename, decodeTime), SpotsOf(decodeTime, lines))
  {
    assert Start(wavFilename, decodeTime).held + Terminated(lines) == Terminated(lines) + "";
    CompletedLines(Start(wavFilename, decodeTime), Terminated(lines), lines, "");
  }

  /** Until its newline arrives, a line yields no spot; its text is held back. */
  lemma NoSpotBeforeNewline(p: WsprdProtocol, data: string)
    requires NoNewline(p.held) && NoNewline(data)
    ensures OutReceived(p, data) == (p.(held := p.held + data), [])
  {
    FeedWithoutNewline(p.held, data);
  }

  /**
   Output may arrive cut anywhere: two chunks yield, together and in order,
   exactly the spots one chunk holding both would, and leave the same text
   held back.
   */
  lemma OutReceivedSplit(p: WsprdProtocol, a: string, b: string)
    ensures
      var (p1, s1) := OutReceived(p, a);
      var (p2, s2) := OutReceived(p1, b);
      OutReceived(p, a + b) == (p2, s1 + s2)
  {
    FeedSplit(p.held, a, b);
    var (l1, r1) := Feed(p.held, a);
    var (l2, r2) := Feed(r1, b);
    SpotsOfAppend(p.decodeTime, l1, l2);
  }

  /** Deliver chunks in arrival order, collecting the spots. */
  function Deliver(p: WsprdProtocol, chunks: seq<string>): (r: (WsprdProtocol, seq<Spot>))
    decreases |chunks|
  {
    if chunks == [] then (p, [])
    else
      var (p1, s1) := OutReceived(p, chunks[0]);
      var (p2, s2) := Deliver(p1, chunks[1..]);
      (p2, s1 + s2)
  }

  /** However the output is cut into chunks, the spots are those of the whole output. */
  lemma {:induction false} DeliverIsWhole(p: WsprdProtocol, chunks: seq<string>)
    requires NoNewline(p.held)
    ensures Deliver(p, chunks) == OutReceived(p, Concat(chunks))
    decreases |chunks|
  {
    if chunks == [] {
      NoSpotBeforeNewline(p, "");
      assert p.held + "" == p.held;
    } else {
      var (p1, s1) := OutReceived(p, chunks[0]);
      DeliverIsWhole(p1, chunks[1..]);
      OutReceivedSplit(p, chunks[0], Concat(chunks[1..]));
    }
  }

  /**
   The process has exited: one deletion of the WAV file is queued for the
   worker thread and nothing is deleted yet. Text still held back is not a
   complete line and yields no spot.
   */
  function ProcessEnded(p: WsprdProtocol, queue: seq<Deferral.Task>): (q: seq<Deferral.Task>)
    ensures |q| == |queue| + 1 && q[..|queue|] == queue
    ensures q[|queue|] == Deferral.Unlink(p.wavFilename)
  {
    Deferral.Defer(queue, Deferral.Unlink(p.wavFilename))
  }

  /**
   The WAV file outlives the process's end and is gone once the worker has
   run the queued deletion, which leaves the worker's queue empty.
   */
  lemma DeletedAfterThreadsRun(p: WsprdProtocol, w: Deferral.Worker)
    requires p.wavFilename in w.fs
    ensures
      var w1 := w.(queue := ProcessEnded(p, w.queue));
      var (w2, _) := Deferral.RunThreads(w1);
      && p.wavFilename in w1.fs
      && p.wavFilename !in w2.fs
      && w2.queue == []
  {
    var q := ProcessEnded(p, w.queue);
    assert q[|w.queue|] in q;
  }
}

=== FILE: spot.dfy ===
/**
 One line of wsprd's standard output and the spot record it yields.

 A spot line has eight whitespace-separated fields,
   time snr dt freq drift call grid power
 of which snr, drift and power must read as integers and dt and freq as
 floating-point literals. dt and freq are kept as their decimal text;
 the leading time field is read and discarded, the record's time being the
 decode time fixed when the decoder was started.
 */
module Spot {
  import opened Optional
  import opened Fields
  import opened Decimal

  datatype Spot = Spot(
    time: real,               // decode time, not taken from the line
    snr: int,                 // dB
    dt: string,               // time offset in seconds, as printed
    frequency: string,        // MHz, as printed
    drift: int,
    call: Option<string>,     // None when wsprd could not recover the call
    grid: string,
    txpower: int)

  /** What wsprd prints for the call of a two-part transmission whose first part it missed. */
  const UnknownCall: string := "<...>"

  /** `<X>`: a call recovered from a two-part transmission. */
  predicate IsBracketed(tok: string) {
    |tok| >= 2 && tok[0] == '<' && tok[|tok| - 1] == '>'
  }

  /** Normalise the call field: `<...>` is no call, `<X>` is `X`, anything else is itself. */
  function ParseCall(tok: string): (r: Option<string>)
    ensures r.None? <==> tok == UnknownCall
    ensures r.Some? && IsBracketed(tok) ==> "<" + r.value + ">" == tok
    ensures r.Some? && !IsBracketed(tok) ==> r.value == tok
  {
    if tok == UnknownCall then None
    else if IsBracketed(tok) then Some(tok[1..|tok| - 1])
    else Some(tok)
  }

  /** How wsprd prints a call: `<...>` when unknown, bracketed when it came in two parts. */
  function RenderCall(call: Option<string>, twoPart: bool): string {
    match call
    case None => UnknownCall
    case Some(c) => if twoPart then "<" + c + ">" else c
  }

  /** A call wsprd can print unambiguously in the given style. */
  predicate PrintableCall(call: Option<string>, twoPart: bool) {
    match call
    case None => true
    case Some(c) => IsField(c) && (if twoPart then c != "..." else !IsBracketed(c))
  }

  /** Normalising a printed call recovers the call, in either style. */
  lemma ParseRenderCall(call: Option<string>, twoPart: bool)
    requires PrintableCall(call, twoPart)
    ensures ParseCall(RenderCall(call, twoPart)) == call
  {
    match call
    case None =>
    case Some(c) =>
      if twoPart {
        var tok := "<" + c + ">";
        assert tok[1..|tok| - 1] == c;
        assert IsBracketed(tok);
        assert UnknownCall[1..|UnknownCall| - 1] == "...";
        assert tok != UnknownCall;
      } else {
        assert IsBracketed(UnknownCall);
        assert c != UnknownCall;
      }
  }

  /** The eight fields of a spot line, with each numeric field in its syntax. */
  predicate WellFormed(f: seq<string>) {
    && |f| == 8
    && IsIntLiteral(f[1])
    && IsFloatLiteral(f[2])
    && IsFloatLiteral(f[3])
    && IsIntLiteral(f[4])
    && IsIntLiteral(f[7])
  }

  /**
   The spot a line yields, or None for a line outside the grammar (blank,
   diagnostic text, wrong field count, a numeric field that does not read).
   */
  function ParseLine(decodeTime: real, line: string): (r: Option<Spot>)
    ensures r.Some? <==> WellFormed(Split(line))
    ensures r.Some? ==>
      var f := Split(line);
      && r.value.time == decodeTime
      && Some(r.value.snr) == ParseInt(f[1])
      && r.value.dt == f[2] && r.value.frequency == f[3]
      && Some(r.value.drift) == ParseInt(f[4])
      && r.value.call == ParseCall(f[5])
      && r.value.grid == f[6]
      && Some(r.value.txpower) == ParseInt(f[7])
  {
    var f := Split(line);
    if |f| != 8 || !IsFloatLiteral(f[2]) || !IsFloatLiteral(f[3]) then None
    else
      match (ParseInt(f[1]), ParseInt(f[4]), ParseInt(f[7]))
      case (Some(snr), Some(drift), Some(power)) =>
        Some(Spot(decodeTime, snr, f[2], f[3], drift, ParseCall(f[5]), f[6], power))
      case _ => None
  }

  /**
   The fields are all that matter: however much whitespace separates them, a
   line parses as the same fields joined by single spaces.
   */
  lemma ParseLineSeesOnlyFields(decodeTime: real, ws: seq<string>, seps: seq<string>)
    requires |ws| == |seps| + 1
    requires forall i :: 0 <= i < |ws| ==> IsField(ws[i])
    requires forall i :: 0 <= i < |seps| ==> seps[i] != [] && AllSpace(seps[i])
    ensures ParseLine(decodeTime, Interleave(ws, seps)) == ParseLine(decodeTime, Unsplit(ws))
  {
    SplitInterleave(ws, seps);
    SplitUnsplit(ws);
  }

  /** A line of nothing but whitespace yields no spot. */
  lemma BlankLineIgnored(decodeTime: real, line: string)
    requires AllSpace(line)
    ensures ParseLine(decodeTime, line).None?
  {
    SplitLeadingSpace(line, "");
    assert line + "" == line;
  }

  /** A spot that wsprd could have printed: each field prints as one token. */
  predicate Printable(s: Spot, twoPart: bool) {
    && IsField(s.dt) && IsFloatLiteral(s.dt)
    && IsField(s.frequency) && IsFloatLiteral(s.frequency)
    && IsField(s.grid)
    && PrintableCall(s.call, twoPart)
  }

  lemma IntIsField(n: int)
    ensures IsField(FormatInt(n))
  {
    var s := FormatInt(n);
    if n < 0 {
      var d := FormatNat(-n);
      assert s == "-" + d;
      forall i | 0 <= i < |s| ensures !IsSpace(s[i]) {
        if i > 0 { assert s[i] == d[i - 1]; }
      }
    }
  }

  /** The line wsprd prints for a spot, with single spaces between fields. */
  function FormatLine(timeField: string, s: Spot, twoPart: bool): string {
    Unsplit([timeField, FormatInt(s.snr), s.dt, s.frequency, FormatInt(s.drift),
             RenderCall(s.call, twoPart), s.grid, FormatInt(s.txpower)])
  }

  lemma RenderCallIsField(call: Option<string>, twoPart: bool)
    requires PrintableCall(call, twoPart)
    ensures IsField(RenderCall(call, twoPart))
  {
    if call.None? {
      assert IsField(UnknownCall);
    } else if twoPart {
      var c := call.value;
      var t := "<" + c + ">";
      forall i | 0 <= i < |t| ensures !IsSpace(t[i]) {
        if 0 < i < |t| - 1 { assert t[i] == c[i - 1]; }
      }
    }
  }

  /** Reading a printed spot back gives the spot, stamped with the decode time. */
  lemma ParseFormatLine(timeField: string, s: Spot, twoPart: bool)
    requires IsField(timeField) && Printable(s, twoPart)
    ensures ParseLine(s.time, FormatLine(timeField, s, twoPart)) == Some(s)
  {
    var f := [timeField, FormatInt(s.snr), s.dt, s.frequency, FormatInt(s.drift),
              RenderCall(s.call, twoPart), s.grid, FormatInt(s.txpower)];
    IntIsField(s.snr);
    IntIsField(s.drift);
    IntIsField(s.txpower);
    RenderCallIsField(s.call, twoPart);
    SplitUnsplit(f);
    ParseFormatInt(s.snr);
    ParseFormatInt(s.drift);
    ParseFormatInt(s.txpower);
    ParseRenderCall(s.call, twoPart);
  }
}

=== FILE: vectors.dfy ===
/**
 The concrete cases the repository's tests exercise, proved of the model.
 */
module Vectors {
  import opened Optional
  import opened Fields
  import opened Decimal
  import opened Spot
  import opened LineBuffer
  import opened Protocol
  import Calendar
  import Listener

  const DecodeTime: real := 179823128.3

  /**
   The layout of the tests' spot lines, `2322 <snr>  1.5   <freq>  -1  <call> <grid> <power>`,
   with the spacing wsprd uses.
   */
  function TestLine(snr: string, freq: string, call: string, grid: string, power: string): string {
    "2322" + " " + (snr + "  " + ("1.5" + "   " + (freq + "  " + ("-1" + "  "
    + (call + " " + (grid + " " + power))))))
  }

  /** The fields of `w + sep + rest`: `w`, then those of `rest`. */
  lemma SplitCons(w: string, sep: string, rest: string, tail: seq<string>)
    requires IsField(w) && sep != [] && AllSpace(sep) && Split(rest) == tail
    ensures Split(w + sep + rest) == [w] + tail
  {
    FieldThenSpace(w, sep, rest);
  }

  /** The fields of a line with four fields and the given whitespace between them. */
  lemma SplitFour(w0: string, s0: string, w1: string, s1: string, w2: string, s2: string, w3: string)
    requires IsField(w0) && IsField(w1) && IsField(w2) && IsField(w3)
    requires s0 != [] && AllSpace(s0) && s1 != [] && AllSpace(s1) && s2 != [] && AllSpace(s2)
    ensures Split(w0 + s0 + (w1 + s1 + (w2 + s2 + w3)))  == [w0, w1, w2, w3]
  {
    FieldAtEnd(w3, "");
    assert w3 + "" == w3;
    SplitCons(w2, s2, w3, [w3]);
    SplitCons(w1, s1, w2 + s2 + w3, [w2, w3]);
    SplitCons(w0, s0, w1 + s1 + (w2 + s2 + w3), [w1, w2, w3]);
  }

  /** The fields of a line with eight fields and the given whitespace between them. */
  lemma SplitEight(w0: string, s0: string, w1: string, s1: string, w2: string, s2: string,
                   w3: string, s3: string, w4: string, s4: string, w5: string, s5: string,
                   w6: string, s6: string, w7: string)
    requires IsField(w0) && IsField(w1) && IsField(w2) && IsField(w3)
    requires IsField(w4) && IsField(w5) && IsField(w6) && IsField(w7)
    requires s0 != [] && AllSpace(s0) && s1 != [] && AllSpace(s1) && s2 != [] && AllSpace(s2)
    requires s3 != [] && AllSpace(s3) && s4 != [] && AllSpace(s4) && s5 != [] && AllSpace(s5)
    requires s6 != [] && AllSpace(s6)
    ensures Split(w0 + s0 + (w1 + s1 + (w2 + s2 + (w3 + s3 + (w4 + s4 + (w5 + s5 + (w6 + s6 + w7)))))))
      == [w0, w1, w2, w3, w4, w5, w6, w7]
  {
    var r4 := w4 + s4 + (w5 + s5 + (w6 + s6 + w7));
    SplitFour(w4, s4, w5, s5, w6, s6, w7);
    SplitCons(w3, s3, r4, [w4, w5, w6, w7]);
    SplitCons(w2, s2, w3 + s3 + r4, [w3, w4, w5, w6, w7]);
    SplitCons(w1, s1, w2 + s2 + (w3 + s3 + r4), [w2, w3, w4, w5, w6, w7]);
    SplitCons(w0, s0, w1 + s1 + (w2 + s2 + (w3 + s3 + r4)), [w1, w2, w3, w4, w5, w6, w7]);
  }

  predicate TestFields(snr: string, freq: string, call: string, grid: string, power: string) {
    IsField(snr) && IsField(freq) && IsField(call) && IsField(grid) && IsField(power)
  }

  lemma SplitTestLine(snr: string, freq: string, call: string, grid: string, power: string)
    requires TestFields(snr, freq, call, grid, power)
    ensures Split(TestLine(snr, freq, call, grid, power)) == ["2322", snr, "1.5", freq, "-1", call, grid, power]
  {
    assert IsField("2322") && IsField("1.5") && IsField("-1");
    assert AllSpace(" ") && AllSpace("  ") && AllSpace("   ");
    SplitEight("2322", " ", snr, "  ", "1.5", "   ", freq, "  ", "-1", "  ", call, " ", grid, " ", power);
  }

  lemma TwoDigitValue(s: string)
    requires |s| == 2 && IsDigit(s[0]) && IsDigit(s[1])
    ensures AllDigits(s) && DigitsValue(s) == 10 * DigitValue(s[0]) + DigitValue(s[1])
  {
    assert s[..1] == [s[0]] && s[..1][..0] == [];
    assert DigitsValue(s[..1]) == DigitValue(s[0]);
    assert s[..|s| - 1] == s[..1];
  }

  /** A test line parses to the spot its fields describe, with the call normalised. */
  lemma ParseTestLine(snr: string, freq: string, call: string, grid: string, power: string, snrValue: int, powerValue: int)
    requires TestFields(snr, freq, call, grid, power)
    requires ParseInt(snr) == Some(snrValue) && ParseInt(power) == Some(powerValue) && IsFloatLiteral(freq)
    ensures ParseLine(DecodeTime, TestLine(snr, freq, call, grid, power))
      == Some(Spot(DecodeTime, snrValue, "1.5", freq, -1, ParseCall(call), grid, powerValue))
  {
    SplitTestLine(snr, freq, call, grid, power);
    CommonFields();
  }

  lemma FieldNoNewline(w: string)
    requires IsField(w)
    ensures NoNewline(w)
  {
    assert IsSpace('\n');
  }

  /** `w + sep + rest` holds no newline when none of its parts does. */
  lemma Piece(w: string, sep: string, rest: string)
    requires IsField(w) && NoNewline(sep) && NoNewline(rest)
    ensures NoNewline(w + sep + rest)
  {
    FieldNoNewline(w);
    NoNewlineConcat(w, sep);
    NoNewlineConcat(w + sep, rest);
  }

  lemma TestLineNoNewline(snr: string, freq: string, call: string, grid: string, power: string)
    requires TestFields(snr, freq, call, grid, power)
    ensures NoNewline(TestLine(snr, freq, call, grid, power))
  {
    assert IsField("2322") && IsField("1.5") && IsField("-1");
    assert NoNewline(" ") && NoNewline("  ") && NoNewline("   ");
    FieldNoNewline(power);
    var r6 := grid + " " + power;
    Piece(grid, " ", power);
    var r5 := call + " " + r6;
    Piece(call, " ", r6);
    var r4 := "-1" + "  " + r5;
    Piece("-1", "  ", r5);
    var r3 := freq + "  " + r4;
    Piece(freq, "  ", r4);
    var r2 := "1.5" + "   " + r3;
    Piece("1.5", "   ", r3);
    var r1 := snr + "  " + r2;
    Piece(snr, "  ", r2);
    Piece("2322", " ", r1);
  }

  /** The line of `test_one_spot`. */
  const OneSpotLine: string := "2322 -21  1.5   14.097110  -1  WA7MOX EL16 33"

  /** The spot of the tests' first line, with the call as parsed. */
  function ExpectedSpot(call: Option<string>): Spot {
    Spot(DecodeTime, -21, "1.5", "14.097110", -1, call, "EL16", 33)
  }

  /** The numeric fields of the tests' lines read as their values. */
  lemma TestNumbers()
    ensures ParseInt("-21") == Some(-21) && ParseInt("33") == Some(33)
    ensures ParseInt("-22") == Some(-22) && ParseInt("20") == Some(20)
    ensures IsFloatLiteral("14.097110") && IsFloatLiteral("14.097130")
  {
    Minus21();
    Minus22();
    Plus33();
    Plus20();
    TestFrequencies();
  }

  lemma Minus21()
    ensures ParseInt("-21") == Some(-21)
  {
    NegativeTwoDigits("-21");
  }

  lemma Minus22()
    ensures ParseInt("-22") == Some(-22)
  {
    NegativeTwoDigits("-22");
  }

  lemma Plus33()
    ensures ParseInt("33") == Some(33)
  {
    TwoDigitValue("33");
  }

  lemma Plus20()
    ensures ParseInt("20") == Some(20)
  {
    TwoDigitValue("20");
  }

  /** Other spellings `int()` accepts: an explicit plus sign, zero padding, a negative zero. */
  lemma IntSpellings()
    ensures ParseInt("+33") == Some(33) && ParseInt("033") == Some(33) && ParseInt("-0") == Some(0)
  {
    assert FormatNat(33) == "33" && FormatNat(0) == "0";
    ParsePaddedInt("+", "", 33);
    ParsePaddedInt("", "0", 33);
    ParsePaddedInt("-", "", 0);
    assert "+" + "" + "33" == "+33" && "" + "0" + "33" == "033" && "-" + "" + "0" == "-0";
  }

  /** The fields every test line shares: the drift `-1` and the time offset `1.5`. */
  lemma CommonFields()
    ensures ParseInt("-1") == Some(-1) && IsFloatLiteral("1.5")
  {
    assert "-1"[1..] == "1" && "1"[..0] == "";
    PointLiteralIsFloat("1", "5");
    assert "1" + "." + "5" == "1.5";
  }

  lemma NegativeTwoDigits(s: string)
    requires |s| == 3 && s[0] == '-' && IsDigit(s[1]) && IsDigit(s[2])
    ensures ParseInt(s) == Some(-(10 * DigitValue(s[1]) + DigitValue(s[2])))
  {
    TwoDigitValue(s[1..]);
  }

  lemma TestFrequencies()
    ensures IsFloatLiteral("14.097110") && IsFloatLiteral("14.097130")
  {
    PointLiteralIsFloat("14", "097110");
    assert "14" + "." + "097110" == "14.097110";
    PointLiteralIsFloat("14", "097130");
    assert "14" + "." + "097130" == "14.097130";
  }

  lemma TestWords()
    ensures TestFields("-21", "14.097110", "WA7MOX", "EL16", "33")
    ensures IsField("<WA7MOX>") && IsField("<...>")
    ensures TestFields("-22", "14.097130", "<W8II>", "EN82", "20")
  {
  }

  /** How the tests' call fields normalise. */
  lemma TestCalls()
    ensures ParseCall("WA7MOX") == Some("WA7MOX") && ParseCall("<WA7MOX>") == Some("WA7MOX")
    ensures ParseCall("<W8II>") == Some("W8II") && ParseCall("<...>") == None
  {
    assert "<WA7MOX>"[1..7] == "WA7MOX";
    assert "<W8II>"[1..5] == "W8II";
  }

  lemma FirstLine(call: string)
    requires IsField(call)
    ensures ParseLine(DecodeTime, TestLine("-21", "14.097110", call, "EL16", "33")) == Some(ExpectedSpot(ParseCall(call)))
    ensures NoNewline(TestLine("-21", "14.097110", call, "EL16", "33"))
  {
    TestWords();
    TestNumbers();
    ParseTestLine("-21", "14.097110", call, "EL16", "33", -21, 33);
    TestLineNoNewline("-21", "14.097110", call, "EL16", "33");
  }

  /** A single line yields one spot, stamped with the decode time and not a parse time. */
  lemma OneSpot()
    ensures OutReceived(Start("wav", DecodeTime), OneSpotLine + "\n").1 == [ExpectedSpot(Some("WA7MOX"))]
  {
    OneSpotLineLayout();
    TestWords();
    TestCalls();
    FirstLine("WA7MOX");
    SingleLine(OneSpotLine);
    CompletedLines(Start("wav", DecodeTime), OneSpotLine + "\n", [OneSpotLine], "");
    SpotsOfLine(DecodeTime, OneSpotLine);
  }

  lemma OneSpotLineLayout()
    ensures TestLine("-21", "14.097110", "WA7MOX", "EL16", "33") == OneSpotLine
  {
  }

  /** A chunk holding exactly one terminated line is that line, terminated. */
  lemma SingleLine(line: string)
    requires NoNewline(line)
    ensures AllLines([line]) && "" + (line + "\n") == Terminated([line]) + ""
  {
    assert Terminated([line]) == line + "\n" + Terminated([]);
  }

  /** `<WA7MOX>` is reported as `WA7MOX`; the line yields one spot, as for a bare call. */
  lemma IndirectCall()
    ensures OutReceived(Start("wav", DecodeTime), IndirectLine + "\n").1 == [ExpectedSpot(Some("WA7MOX"))]
  {
    IndirectLineLayout();
    TestWords();
    TestCalls();
    FirstLine("<WA7MOX>");
    SingleLine(IndirectLine);
    CompletedLines(Start("wav", DecodeTime), IndirectLine + "\n", [IndirectLine], "");
    SpotsOfLine(DecodeTime, IndirectLine);
  }

  const UnknownCallLine: string := "2322 -21  1.5   14.097110  -1  <...> EL16 33"

  lemma UnknownCallLineLayout()
    ensures TestLine("-21", "14.097110", "<...>", "EL16", "33") == UnknownCallLine
  {
  }

  /** `<...>` is reported as no call at all; the line still yields its one spot. */
  lemma UnknownCallIsNone()
    ensures OutReceived(Start("wav", DecodeTime), UnknownCallLine + "\n").1 == [ExpectedSpot(None)]
  {
    UnknownCallLineLayout();
    TestWords();
    TestCalls();
    FirstLine("<...>");
    SingleLine(UnknownCallLine);
    CompletedLines(Start("wav", DecodeTime), UnknownCallLine + "\n", [UnknownCallLine], "");
    SpotsOfLine(DecodeTime, UnknownCallLine);
  }

  const IndirectLine: string := "2322 -21  1.5   14.097110  -1  <WA7MOX> EL16 33"
  const SecondSpotLine: string := "2322 -22  1.5   14.097130  -1  <W8II> EN82 20"

  /** The chunk of `test_malformed_line`: a blank line, a spot, `garbage`, another spot. */
  const MalformedChunk: string := "\n" + IndirectLine + "\n" + "garbage" + "\n" + SecondSpotLine + "\n"

  lemma SecondLine()
    ensures ParseLine(DecodeTime, TestLine("-22", "14.097130", "<W8II>", "EN82", "20"))
      == Some(Spot(DecodeTime, -22, "1.5", "14.097130", -1, Some("W8II"), "EN82", 20))
    ensures NoNewline(TestLine("-22", "14.097130", "<W8II>", "EN82", "20"))
  {
    TestWords();
    TestNumbers();
    TestCalls();
    ParseTestLine("-22", "14.097130", "<W8II>", "EN82", "20", -22, 20);
    TestLineNoNewline("-22", "14.097130", "<W8II>", "EN82", "20");
  }

  lemma GarbageFacts()
    ensures NoNewline("garbage") && NoNewline("")
    ensures ParseLine(DecodeTime, "garbage").None? && ParseLine(DecodeTime, "").None?
  {
    BlankLineIgnored(DecodeTime, "");
    assert IsField("garbage");
    FieldAtEnd("garbage", "");
    assert "garbage" + "" == "garbage";
  }

  /** Four lines terminated, the shape of the malformed-line chunk. */
  lemma FourLines(l0: string, l1: string, l2: string, l3: string)
    requires NoNewline(l0) && NoNewline(l1) && NoNewline(l2) && NoNewline(l3)
    ensures Terminated([l0, l1, l2, l3]) == l0 + "\n" + l1 + "\n" + l2 + "\n" + l3 + "\n"
    ensures AllLines([l0, l1, l2, l3])
  {
    ConsLine(l3, []);
    ConsLine(l2, [l3]);
    ConsLine(l1, [l2, l3]);
    ConsLine(l0, [l1, l2, l3]);
    assert [l3] == [l3] + [];
    assert [l0] + [l1, l2, l3] == [l0, l1, l2, l3];
    assert [l1] + [l2, l3] == [l1, l2, l3];
    assert [l2] + [l3] == [l2, l3];
    assert Terminated([l3]) == l3 + "\n";
    assert Terminated([l2, l3]) == l2 + "\n" + (l3 + "\n");
    assert Terminated([l1, l2, l3]) == l1 + "\n" + (l2 + "\n" + (l3 + "\n"));
  }

  lemma IndirectLineLayout()
    ensures TestLine("-21", "14.097110", "<WA7MOX>", "EL16", "33") == IndirectLine
  {
  }

  lemma SecondSpotLineLayout()
    ensures TestLine("-22", "14.097130", "<W8II>", "EN82", "20") == SecondSpotLine
  {
  }

  lemma MalformedChunkLines()
    ensures MalformedChunk == "" + "\n" + TestLine("-21", "14.097110", "<WA7MOX>", "EL16", "33") + "\n"
      + "garbage" + "\n" + TestLine("-22", "14.097130", "<W8II>", "EN82", "20") + "\n"
  {
    IndirectLineLayout();
    SecondSpotLineLayout();
    assert "" + "\n" == "\n";
  }

  /** Four one-element sequences concatenate to the four-element sequence. */
  lemma FourSingles<T>(x0: T, x1: T, x2: T, x3: T)
    ensures [x0] + ([x1] + ([x2] + [x3])) == [x0, x1, x2, x3]
  {
  }

  /** The spots of the lines `[l0, l1, l2, l3]`, from those of each line. */
  lemma SpotsOfFour(t: real, l0: string, l1: string, l2: string, l3: string)
    ensures SpotsOf(t, [l0, l1, l2, l3])
      == SpotsOf(t, [l0]) + SpotsOf(t, [l1]) + SpotsOf(t, [l2]) + SpotsOf(t, [l3])
  {
    FourSingles(l0, l1, l2, l3);
    SpotsOfAppend(t, [l2], [l3]);
    SpotsOfAppend(t, [l1], [l2] + [l3]);
    SpotsOfAppend(t, [l0], [l1] + ([l2] + [l3]));
  }

  /** The lines of the malformed-line chunk: blank, a spot, `garbage`, another spot. */
  function MalformedLines(): seq<string> {
    ["", TestLine("-21", "14.097110", "<WA7MOX>", "EL16", "33"), "garbage",
     TestLine("-22", "14.097130", "<W8II>", "EN82", "20")]
  }

  lemma MalformedChunkTerminated()
    ensures AllLines(MalformedLines()) && "" + MalformedChunk == Terminated(MalformedLines()) + ""
  {
    var a := TestLine("-21", "14.097110", "<WA7MOX>", "EL16", "33");
    var b := TestLine("-22", "14.097130", "<W8II>", "EN82", "20");
    TestWords();
    FirstLine("<WA7MOX>");
    SecondLine();
    GarbageFacts();
    FourLines("", a, "garbage", b);
    MalformedChunkLines();
  }

  lemma MalformedSpots()
    ensures SpotsOf(DecodeTime, MalformedLines())
      == [ExpectedSpot(Some("WA7MOX")), Spot(DecodeTime, -22, "1.5", "14.097130", -1, Some("W8II"), "EN82", 20)]
  {
    var a := TestLine("-21", "14.097110", "<WA7MOX>", "EL16", "33");
    var b := TestLine("-22", "14.097130", "<W8II>", "EN82", "20");
    TestWords();
    TestCalls();
    FirstLine("<WA7MOX>");
    SecondLine();
    GarbageFacts();
    SpotsOfFour(DecodeTime, "", a, "garbage", b);
    SpotsOfLine(DecodeTime, "");
    SpotsOfLine(DecodeTime, a);
    SpotsOfLine(DecodeTime, "garbage");
    SpotsOfLine(DecodeTime, b);
  }

  /**
   A malformed line between two spot lines is ignored: two spots come out,
   in order, and the blank and `garbage` lines yield nothing.
   */
  lemma MalformedLineIgnored()
    ensures
      var spots := OutReceived(Start("wav", DecodeTime), MalformedChunk).1;
      |spots| == 2 && spots[0].call == Some("WA7MOX") && spots[1].call == Some("W8II")
  {
    MalformedChunkTerminated();
    CompletedLines(Start("wav", DecodeTime), MalformedChunk, MalformedLines(), "");
    MalformedSpots();
  }

  /** A line arriving in two pieces yields nothing until its end, then its one spot. */
  lemma LineInParts()
    ensures
      var p := Start("wav", DecodeTime);
      var (p1, s1) := OutReceived(p, "2322 -21  1.5   14.097110  ");
      var (p2, s2) := OutReceived(p1, "-1  WA7MOX EL16 33\n");
      s1 == [] && s2 == [ExpectedSpot(Some("WA7MOX"))]
  {
    var p := Start("wav", DecodeTime);
    var a, b := "2322 -21  1.5   14.097110  ", "-1  WA7MOX EL16 33\n";
    assert NoNewline(a);
    NoSpotBeforeNewline(p, a);
    OutReceivedSplit(p, a, b);
    OneSpotInParts();
    OneSpot();
  }

  lemma OneSpotInParts()
    ensures "2322 -21  1.5   14.097110  " + "-1  WA7MOX EL16 33\n" == OneSpotLine + "\n"
  {
  }

  /** 1496624040 is Mon Jun  5 00:54:00 UTC 2017. The literals are passed as parameters fixed by `requires`: with literal arguments the solver would unfold the recursive calendar and digit functions without bound. */
  lemma June5th2017(t: int)
    requires t == 1496624040
    ensures Calendar.Gmtime(t) == Calendar.UtcTime(Calendar.Date(2017, 6, 5), 0, 54, 0)
  {
    var june5 := Calendar.Date(2017, 6, 5);
    assert Calendar.DaysBeforeYear(2017) == 17167;
    assert Calendar.DaysBeforeMonth(2017, 6) == 151;
    assert Calendar.DaysFromCivil(june5) == 17322;
    Calendar.GmtimeUnique(t, Calendar.UtcTime(june5, 0, 54, 0));
  }

  lemma FrequencyDigits()
    ensures FormatInt(12345678) == "12345678"
  {
    assert FormatNat(1) == "1";
    assert FormatNat(12) == "12";
    assert FormatNat(123) == "123";
    assert FormatNat(1234) == "1234";
    assert FormatNat(12345) == "12345";
    assert FormatNat(123456) == "123456";
    assert FormatNat(1234567) == "1234567";
    assert FormatNat(12345678) == "12345678";
  }

  lemma PaddedFields()
    ensures Listener.TwoDigits(17) == "17" && Listener.TwoDigits(6) == "06" && Listener.TwoDigits(5) == "05"
    ensures Listener.TwoDigits(0) == "00" && Listener.TwoDigits(54) == "54"
  {
  }

  lemma StampVector(u: Calendar.UtcTime)
    requires u == Calendar.UtcTime(Calendar.Date(2017, 6, 5), 0, 54, 0)
    ensures Listener.StampText(u) == "_170605_0054.wav"
  {
    assert u.date.year % 100 == 17;
    PaddedFields();
    assert "_" + "17" + "06" + "05" + "_" + "00" + "54" + ".wav" == "_170605_0054.wav";
  }

  /** The segment name at 12345678 Hz for that time; the parameters are literals, as in `June5th2017`. */
  lemma SegmentNameVector(frequency: int, t: int)
    requires frequency == 12345678 && t == 1496624040
    ensures Listener.SegmentName(frequency, t) == "12345678_170605_0054.wav"
  {
    June5th2017(t);
    StampVector(Calendar.Gmtime(t));
    FrequencyDigits();
    NameText();
  }

  lemma NameText()
    ensures "12345678" + "_170605_0054.wav" == "12345678_170605_0054.wav"
  {
  }

  /**
   Mon Jun  5 00:54:00 UTC 2017 at 12345678 Hz, in a directory named without a
   trailing slash; the parameters are literals, as in `June5th2017`.
   */
  lemma FilenameVector(l: Listener.Listener, frequency: int, t: int)
    requires l.directory != [] && l.directory[|l.directory| - 1] != '/'
    requires frequency == 12345678 && t == 1496624040
    ensures Listener.Filename(l, frequency, t) == l.directory + "/" + "12345678_170605_0054.wav"
  {
    Listener.FilenameInDirectory(l, frequency, t);
    SegmentNameVector(frequency, t);
  }

  /** Closing the segment at the frequency it opened at starts wsprd as the test expects. */
  lemma FileClosedVector(dir: string, now: real)
    ensures
      var l := Listener.NewListener(dir, 1234);
      Listener.Run(Listener.Session(l, [], 0),
                   [Listener.Opened("some file", 12345678), Listener.Closed("some file", 12345678, now)],
                   Some("/here/is/wsprd")).spawned
        == [Listener.DecodeRequest(Start("some file", now), "/here/is/wsprd", 12344444, dir)]
  {
    Listener.OpenThenCloseSpawnsOne(Listener.NewListener(dir, 1234), "some file", 12345678, now, "/here/is/wsprd");
  }
}
